=== FILE: README.md ===
# Share dialog and folder card: a Dafny model

This project models the interaction logic of two React widgets of a
knowledge-base front end:

- **`SharePermissionModal`** is the dialog that lists who can access a folder.
  It lets the owner change or revoke each user's permission and change a role
  group's permission. It expands a group to show its members. In an invite mode
  it collects invitees as tags, from typed e-mail addresses, typed group names
  or clicked suggestions, and submits them with one permission level.
- **`KnowledgeBaseCard`** is the folder tile. It shows a share badge chosen from
  a 32-bit string hash of the folder id, and a megaphone instead when a role tag
  reads `system`. It swaps the group glyph for a folder glyph. A central card
  also has a three-item menu (Permissions, Edit, Delete) that opens and closes.

The component state becomes an immutable record and every event handler becomes
a pure function from one state to the next:

- `Modal` holds the users, the role groups, the suggestion pools, the set of
  expanded group ids, the mode, the search query, the tags, the field text, the
  error text and the invite permission.
- `Step` maps the card's menu flag and one mouse event to the new flag and the
  callbacks it invokes.

Clock reads (`new Date()`, `Date.now()`) become a `now` parameter, counted in
milliseconds.

The modules follow the program's structure:

- `JsText` models the JavaScript string primitives the components call:
  - `\s` and `trim` (exact ECMAScript white space and line terminators);
  - `toLowerCase` (ASCII only, see below);
  - `includes`;
  - decimal rendering in a template string.
- `EmailCheck` models `/^[^\s@]+@[^\s@]+\.[^\s@]+$/`. `MatchesEmailRegex` is the
  language read off the regular expression. `IsValidEmail` decides it by
  counting and indexing. `IsValidEmailMatchesRegex` proves they agree.
- `Seqs` models `filter` and the stable descending `sort` used for the recency
  order.
- `SharePermissionModal` models the dialog's state, handlers and search.
- `ShareScenarios` models the dialog's built-in data and states what concrete
  event sequences do on it.
- `KnowledgeBaseCard` models the hash, the badges, the glyph and the menu.
- `Options` holds the `Option` type.

Three behaviours of the code differ from what a first reading suggests. The
model follows the code in each case:

- **The share-mode search is reachable.** The share-mode search box is
  read-only, and clicking it enters invite mode. But pressing Enter in invite
  mode clears the field and not the search query, and submitting does not clear
  the query either. So after Enter and submit, the share view opens with a
  non-blank query, and the share-mode branch of the search runs on it
  (`ShareSearchAfterSubmit`, `SubmitLeavesStaleResults`). This is the finding
  below.
- **The `group-<time>` id fallback is never used by the component.** A typed
  group name is accepted only when some group carries it, so the matched group
  always exists. `matchedGroup?.id || ...` would still fall back on a matched
  group whose id is empty, but the component never holds one. The built-in and
  suggested groups have non-empty ids (`InitialGroupIdsNonEmpty`). Enter, a
  picked result and the submit keep every group id and group-tag id non-empty
  (`KeyDownKeepsGroupIds`, `PickKeepsGroupIds`, `InviteSubmitKeepsGroupIds`).
  In such a state the tag takes the matched group's id
  (`GroupTagUsesMatchedId`). The model keeps JavaScript's `||` (`OrElse`)
  because its handlers accept any state, and `GroupTagForFirstMatch` states
  when each id is used.
- **The `onInviteSuccess` prop is never called.** The submit does not read it
  from the props. The bare name resolves to a global binding, so only a global
  function of that name would be called. The model assumes there is none, and
  the callback is not part of the submit.

## Model

| member | source | states |
|---|---|---|
| JsText.Trim | src/components/SharePermissionModal.tsx:336-337 | `trim` removes exactly a white-space prefix and suffix. The result is a slice of the input whose ends are not white space, and it is empty exactly when the input is all white space. |
| JsText.TrimUnchanged | src/components/SharePermissionModal.tsx:326 | A text that neither starts nor ends with white space is left as it is by `trim`. |
| JsText.Lower | src/components/SharePermissionModal.tsx:296 | `toLowerCase` keeps the length and maps each character on its own. |
| JsText.EqualsIgnoreCaseIff | src/components/SharePermissionModal.tsx:296-298 | Two names are equal ignoring case exactly when they have the same length and agree letter by letter after lower-casing. |
| JsText.Includes | src/components/SharePermissionModal.tsx:263-267 | `includes` is true exactly when the needle occurs at some position of the text. |
| JsText.IndexOf | src/components/SharePermissionModal.tsx:290 | The first `@` lies at the returned index, and none occurs before it. |
| JsText.CountChar | src/components/SharePermissionModal.tsx:290 | The number of occurrences is zero exactly when the character is absent. |
| JsText.CountCharConcat | src/components/SharePermissionModal.tsx:290 | Occurrences of a character in a concatenation add up. |
| JsText.NatToString | src/components/SharePermissionModal.tsx:347 | A time stamp renders as decimal digits without a leading zero. |
| JsText.NatToStringRoundTrip | src/components/SharePermissionModal.tsx:347 | Reading back the digits of `${Date.now()}` gives the time stamp, so distinct times give distinct tag ids. |
| EmailCheck.IsValidEmailMatchesRegex | src/components/SharePermissionModal.tsx:289-292 | The regular expression accepts a text exactly when it has no white space, exactly one `@`, a non-empty local part, and a `.` strictly inside the domain. |
| EmailCheck.MatchesEmailRegex | src/components/SharePermissionModal.tsx:289-292 | The language of the anchored regular expression: a split into a local part, `@`, a middle part, `.` and a last part, each part a non-empty run without white space or `@`. `IsValidEmailMatchesRegex` relates it to the decision procedure. |
| EmailCheck.IsValidEmail | src/components/SharePermissionModal.tsx:289-292 | The e-mail check as a decision procedure: no white space, one `@`, a non-empty local part, and a `.` strictly inside the domain. `IsValidEmailMatchesRegex` proves it accepts exactly what the regular expression accepts. |
| EmailCheck.SpaceRejected | src/components/SharePermissionModal.tsx:290 | Any white space anywhere makes the e-mail check fail. |
| EmailCheck.SplitCount | src/components/SharePermissionModal.tsx:290 | An `@` with no other `@` before or after it is the only one. |
| EmailCheck.UniqueAt | src/components/SharePermissionModal.tsx:290 | In a text with a single `@`, the first `@` is that one. |
| Seqs.Filter | src/components/SharePermissionModal.tsx:170 | `filter` keeps exactly the elements that pass, each one taken from the input. |
| Seqs.FilterConcat | src/components/SharePermissionModal.tsx:170 | Filtering keeps the relative order of the survivors. |
| Seqs.FilterKeepsAll | src/components/SharePermissionModal.tsx:374 | A filter that rejects nothing returns its input unchanged. |
| Seqs.FilterIdempotent | src/components/SharePermissionModal.tsx:374 | Filtering twice by the same test is filtering once. |
| Seqs.FilterAt | src/components/SharePermissionModal.tsx:404 | An element that passes the test is found among the survivors right after the earlier elements that pass. |
| Seqs.FilterLength | src/components/SharePermissionModal.tsx:170 | The survivors number as many as the elements that pass. |
| Seqs.InsertDesc | src/components/SharePermissionModal.tsx:246 | Inserting into a list sorted latest-first keeps it sorted and adds exactly that element. |
| Seqs.SortDesc | src/components/SharePermissionModal.tsx:246-247 | The recency sort returns a permutation of its input, ordered latest first. |
| Seqs.WithKeyInsert | src/components/SharePermissionModal.tsx:246 | An inserted element goes ahead of the elements with an equal key, which keep their order. |
| Seqs.SortDescStable | src/components/SharePermissionModal.tsx:246-247 | The sort is stable: elements with equal keys keep their input order. |
| SharePermissionModal.WithoutUser | src/components/SharePermissionModal.tsx:169-170 | Revoking removes exactly the rows with that id. Every other row survives. |
| SharePermissionModal.WithoutUserConcat | src/components/SharePermissionModal.tsx:170 | Revoking acts on each part of a list separately, so the survivors keep their order. |
| SharePermissionModal.WithoutUserAbsent | src/components/SharePermissionModal.tsx:169-170 | Revoking an id nobody holds changes nothing. |
| SharePermissionModal.SetUserPermission | src/components/SharePermissionModal.tsx:174-178 | A level change keeps the length and every field except the permission of matching rows. Matching rows get the new level. Other rows are untouched. |
| SharePermissionModal.SetGroupPermission | src/components/SharePermissionModal.tsx:182-186 | The same for role groups. |
| SharePermissionModal.ChangePermission | src/components/SharePermissionModal.tsx:168-179 | `Revoke` deletes exactly the rows with the id. Any other choice sets their level. Only the user list changes. |
| SharePermissionModal.SetUserPermissionIdempotent | src/components/SharePermissionModal.tsx:174-178 | Choosing the same level twice is choosing it once. |
| SharePermissionModal.SetUserPermissionOverride | src/components/SharePermissionModal.tsx:174-178 | A later level choice overrides an earlier one. |
| SharePermissionModal.RevokeAfterGrant | src/components/SharePermissionModal.tsx:168-178 | Revoking after a level change equals revoking at once. |
| SharePermissionModal.ChangeGroupPermission | src/components/SharePermissionModal.tsx:181-187 | Exactly the groups with the id get the level. All other fields, and everything outside the group list, stay as they were. |
| SharePermissionModal.ToggleGroupExpansion | src/components/SharePermissionModal.tsx:189-198 | Only the given id flips its membership in the expanded set. |
| SharePermissionModal.ToggleTwice | src/components/SharePermissionModal.tsx:189-198 | Toggling twice restores the dialog. |
| SharePermissionModal.VisibleMembers | src/components/SharePermissionModal.tsx:843-856 | An expanded group shows all its members, a collapsed one none. |
| SharePermissionModal.ToggleShowsOrHides | src/components/SharePermissionModal.tsx:189-198 | Clicking a group's row shows its members when they were hidden and hides them when they were shown. |
| SharePermissionModal.SortedUsers | src/components/SharePermissionModal.tsx:246 | The share list shows every user exactly once, latest `addedAt` first. |
| SharePermissionModal.SortedRoleGroups | src/components/SharePermissionModal.tsx:247 | The same for role groups. |
| SharePermissionModal.SortedUsersStable | src/components/SharePermissionModal.tsx:246 | Users added at the same instant keep their stored order. |
| SharePermissionModal.EnterInvite | src/components/SharePermissionModal.tsx:304-311 | Entering invite mode empties the query, field, tags and error and changes nothing else. |
| SharePermissionModal.BackToShare | src/components/SharePermissionModal.tsx:313-320 | Leaving invite mode makes the same resets and changes nothing else. |
| SharePermissionModal.InviteRoundTrip | src/components/SharePermissionModal.tsx:304-320 | Entering and leaving invite mode from a clean share view restores it. |
| SharePermissionModal.TypeInput | src/components/SharePermissionModal.tsx:596-601 | Typing sets both the field and the search query and clears the error. Nothing else changes. |
| SharePermissionModal.SelectInvitePermission | src/components/SharePermissionModal.tsx:612 | The invite selector changes only the invite permission. |
| SharePermissionModal.AnyGroupNamed | src/components/SharePermissionModal.tsx:297-298 | `some` is true exactly when some group's name equals the text, ignoring case. |
| SharePermissionModal.AnyGroupNamedConcat | src/components/SharePermissionModal.tsx:297-299 | A name occurs in existing-then-suggested groups exactly when it occurs in either list. |
| SharePermissionModal.IsValidRoleGroupName | src/components/SharePermissionModal.tsx:295-300 | A group name is valid exactly when some existing or suggested group has it, ignoring case. |
| SharePermissionModal.FindGroupNamed | src/components/SharePermissionModal.tsx:359 | `find` returns the first group whose name matches, and nothing exactly when none matches. |
| SharePermissionModal.OrElse | src/components/SharePermissionModal.tsx:361-362 | `a \|\| b` on a string yields `a` unless it is missing or empty. |
| SharePermissionModal.AddTagFromInput | src/components/SharePermissionModal.tsx:335-371 | A blank field changes nothing. Otherwise the tag list either stays or gains exactly one tag at the end. Only the tags, the field and the error can change. |
| SharePermissionModal.KeyDown | src/components/SharePermissionModal.tsx:322-333 | Enter on a blank field, or any other key, changes nothing. A rejected entry only sets the error. An accepted entry appends exactly one tag and clears the field and the error. Acceptance is stated through the regular expression and the group pool. |
| SharePermissionModal.Acceptable | src/components/SharePermissionModal.tsx:324-330 | The Enter handler's test: a text with `@` must match the e-mail regular expression, and a text without one must name an existing or suggested group, ignoring case. `KeyDown` is stated through it. |
| SharePermissionModal.EmailTag | src/components/SharePermissionModal.tsx:346-351 | The tag an accepted address becomes: a user tag named by the address, with the address as its e-mail and `email-<time>` as its id. `NatToStringRoundTrip` makes ids from different times differ. |
| SharePermissionModal.GroupTagFor | src/components/SharePermissionModal.tsx:359-364 | The tag an accepted group name becomes, looked up in the existing groups and then the suggested ones. `GroupTagForFirstMatch` states which group it names. |
| SharePermissionModal.KeyDownEmail | src/components/SharePermissionModal.tsx:340-352 | An accepted address becomes a user tag whose name and e-mail are the trimmed text. |
| SharePermissionModal.GroupTagForFirstMatch | src/components/SharePermissionModal.tsx:359-364 | A group-name tag carries the first matching group's name. It carries that group's id unless the id is empty, and then `group-<time>`. |
| SharePermissionModal.GroupTagUsesMatchedId | src/components/SharePermissionModal.tsx:355-364 | When every group has a non-empty id, an accepted group name takes the matched group's id, and the `group-<time>` fallback is not used. |
| SharePermissionModal.KeyDownKeepsGroupIds | src/components/SharePermissionModal.tsx:322-364 | Enter keeps every group id and group-tag id non-empty, because a new group tag takes a matched group's id or the non-empty `group-<time>`. |
| SharePermissionModal.KeyDownGroup | src/components/SharePermissionModal.tsx:353-365 | Enter on an accepted group name appends that tag. |
| SharePermissionModal.KeyDownFirstGroup | src/components/SharePermissionModal.tsx:359-365 | A name matching the first existing group yields a tag for exactly that group. |
| SharePermissionModal.KeyDownRejectKeepsInput | src/components/SharePermissionModal.tsx:322-330 | A rejected entry keeps the tags and the typed text and shows "This is not a valid email". |
| SharePermissionModal.ShareSearchAfterSubmit | src/components/SharePermissionModal.tsx:258-282 | After typing, Enter and submit, the dialog is in share mode with the typed text as a non-blank query. |
| SharePermissionModal.RemoveInviteTag | src/components/SharePermissionModal.tsx:373-376 | Removing a tag drops every tag with that id and keeps the others. Only the tags change. |
| SharePermissionModal.RemoveAfterAdd | src/components/SharePermissionModal.tsx:373-374 | Removing a just-added tag with a fresh id restores the tag list. |
| SharePermissionModal.SuggestionTag | src/components/SharePermissionModal.tsx:378-396 | A suggested user becomes a user tag with its e-mail. A suggested group becomes a group tag without one. |
| SharePermissionModal.AddSuggestedToTags | src/components/SharePermissionModal.tsx:378-398 | A clicked suggestion appends its tag at the end, without checking whether it is already selected. Every other part of the dialog is left as it was. |
| SharePermissionModal.RemoveAfterAddSuggested | src/components/SharePermissionModal.tsx:373-398 | Removing the tag of a just-added suggestion, when no earlier tag carries its id, gives back the dialog as it was before the click. |
| SharePermissionModal.PickSearchResult | src/components/SharePermissionModal.tsx:636-641 | Clicking a result appends its tag and clears the query, field and error. Nothing else changes. |
| SharePermissionModal.RemoveAfterPick | src/components/SharePermissionModal.tsx:373-398 | Removing the tag of a just-picked result whose id no earlier tag carries leaves the dialog as before the click, except that the query, the field and the error are cleared. |
| SharePermissionModal.PickKeepsGroupIds | src/components/SharePermissionModal.tsx:378-398 | Picking a user, or a group with a non-empty id, keeps every group id and group-tag id non-empty. |
| SharePermissionModal.NewUsers | src/components/SharePermissionModal.tsx:404-414 | One user per user tag, each with the invite permission and the submit time. |
| SharePermissionModal.NewUser | src/components/SharePermissionModal.tsx:406-413 | The user a user tag becomes: the tag's id and name, its e-mail or `<name>@company.com`, the default avatar, the invite permission and the submit time. `InviteSubmitFallbackEmail` states these fields for every tag of a submit. |
| SharePermissionModal.NewGroup | src/components/SharePermissionModal.tsx:416-423 | The group a group tag becomes: the tag's id and name, five members counted, none listed, the invite permission and the submit time. `InviteSubmitGroupFromTag` states these fields for every tag of a submit. |
| SharePermissionModal.NewGroups | src/components/SharePermissionModal.tsx:415-424 | One group per group tag, each with the invite permission, the submit time and no members. |
| SharePermissionModal.Reverse | src/components/SharePermissionModal.tsx:414 | Element `i` of the reversal is element `n-1-i` of the input. |
| SharePermissionModal.ReverseCons | src/components/SharePermissionModal.tsx:414 | Reversing `[x] + s` puts `x` last. |
| SharePermissionModal.PrependUsersReverses | src/components/SharePermissionModal.tsx:404-414 | Prepending one user at a time leaves the new users in reverse tag order ahead of the old list. |
| SharePermissionModal.PrependGroupsReverses | src/components/SharePermissionModal.tsx:415-425 | The same for groups. |
| SharePermissionModal.PrependUsers | src/components/SharePermissionModal.tsx:404-426 | The `forEach` over the tags as it acts on the user list: each user tag's user goes in front, one after the other. `PrependUsersReverses` gives its closed form. |
| SharePermissionModal.PrependGroups | src/components/SharePermissionModal.tsx:404-426 | The same `forEach` as it acts on the group list. `PrependGroupsReverses` gives its closed form. |
| SharePermissionModal.InviteSubmit | src/components/SharePermissionModal.tsx:400-432 | With no tags nothing happens. Otherwise each list gains its new entities, newest tag first, ahead of the old entries. Tags, field and error are cleared and the mode is share. Everything else, the query included, is kept. |
| SharePermissionModal.InviteSubmitCounts | src/components/SharePermissionModal.tsx:404-426 | Each list grows by the number of tags of its kind. |
| SharePermissionModal.InviteSubmitNewEntities | src/components/SharePermissionModal.tsx:411-421 | Every new entry carries the chosen permission and the submit time. |
| SharePermissionModal.SubmitGrantsSelectedPermission | src/components/SharePermissionModal.tsx:404-424 | The level last picked in the invite selector is the level every user and group of the submit gets. |
| SharePermissionModal.InviteSubmitKeepsGroupIds | src/components/SharePermissionModal.tsx:415-425 | The submit keeps every group id non-empty, because each new group takes a group tag's id. |
| SharePermissionModal.InviteSubmitLastFirst | src/components/SharePermissionModal.tsx:404-425 | The last tag's entity ends up first in its list. |
| SharePermissionModal.InviteSubmitFallbackEmail | src/components/SharePermissionModal.tsx:404-413 | Every user tag, not only the last, becomes one new user at a position fixed by the number of earlier user tags. That user has the tag's id and name, the default avatar, the chosen permission and the submit time. Its e-mail is the tag's, or `<name>@company.com` when the tag has none or an empty one. |
| SharePermissionModal.InviteSubmitGroupFromTag | src/components/SharePermissionModal.tsx:414-424 | Every group tag becomes one new group at a position fixed by the number of earlier group tags. It has the tag's id and name, a member count of five, no listed members, the chosen permission and the submit time. |
| SharePermissionModal.NewUsersConcat | src/components/SharePermissionModal.tsx:404-414 | Users from concatenated tag lists are the concatenation of the users from each list. |
| SharePermissionModal.NewGroupsConcat | src/components/SharePermissionModal.tsx:415-424 | The same for groups. |
| SharePermissionModal.NewUsersFromTags | src/components/SharePermissionModal.tsx:404-414 | The i-th new user is made from the i-th user tag, so the new users are the user tags' entries in tag order and nothing else. |
| SharePermissionModal.NewGroupsFromTags | src/components/SharePermissionModal.tsx:415-424 | The i-th new group is made from the i-th group tag. |
| SharePermissionModal.InviteSubmitClearingQuery | src/components/SharePermissionModal.tsx:400-432 | The corrected submit: it equals the submit except that the query becomes empty. |
| SharePermissionModal.SubmitLeavesStaleResults | src/components/SharePermissionModal.tsx:400-432 | As written, a group name entered with Enter and then submitted shows the new group in the share view's search results. |
| SharePermissionModal.ClearedSubmitHidesResults | src/components/SharePermissionModal.tsx:313-320 | After the corrected submit no search result is shown. |
| SharePermissionModal.FilteredSuggestedUsers | src/components/SharePermissionModal.tsx:250-252 | The suggested users are exactly those whose id no current user holds. |
| SharePermissionModal.FilteredSuggestedGroups | src/components/SharePermissionModal.tsx:253-255 | The suggested groups are exactly those whose id no current group holds. |
| SharePermissionModal.SuggestionsExcludeGranted | src/components/SharePermissionModal.tsx:250-255 | No suggestion shares an id with someone who already holds a permission. |
| SharePermissionModal.UsersAsSuggestions | src/components/SharePermissionModal.tsx:269 | The result list holds the same users in the same order. |
| SharePermissionModal.GroupsAsSuggestions | src/components/SharePermissionModal.tsx:269 | The same for groups. |
| SharePermissionModal.SearchResults | src/components/SharePermissionModal.tsx:258-286 | A blank or white-space query shows no results. |
| SharePermissionModal.InviteResultsSplit | src/components/SharePermissionModal.tsx:260-270 | In invite mode the results are the matching suggested users followed by the matching suggested groups. |
| SharePermissionModal.InviteSearchSound | src/components/SharePermissionModal.tsx:260-270 | Every invite-mode result is an ungranted suggestion whose name, or whose e-mail for a user, contains the query ignoring case. |
| SharePermissionModal.UserMatches | src/components/SharePermissionModal.tsx:262-265 | A suggested user matches when the query occurs in its name or its e-mail, both lower-cased. `InviteSearchSound` and `InviteSearchCompleteUsers` use it. |
| SharePermissionModal.GroupMatches | src/components/SharePermissionModal.tsx:266-268 | A suggested group matches when the query occurs in its lower-cased name. |
| SharePermissionModal.InviteSearchCompleteUsers | src/components/SharePermissionModal.tsx:262-265 | Every ungranted suggested user whose name or e-mail contains the query is offered. |
| SharePermissionModal.InviteSearchCompleteGroups | src/components/SharePermissionModal.tsx:266-268 | Every ungranted suggested group whose name contains the query is offered. |
| SharePermissionModal.ResultAt | src/components/SharePermissionModal.tsx:269 | Users come before groups in the result list. |
| SharePermissionModal.MatchedSuggestedUser | src/components/SharePermissionModal.tsx:262-265 | A user kept by the filters is ungranted and matches the query. |
| SharePermissionModal.MatchedSuggestedGroup | src/components/SharePermissionModal.tsx:266-268 | A group kept by the filters is ungranted and matches the query. |
| SharePermissionModal.UsersAsSuggestionsMember | src/components/SharePermissionModal.tsx:269 | Every matching user appears among the results. |
| SharePermissionModal.GroupsAsSuggestionsMember | src/components/SharePermissionModal.tsx:269 | Every matching group appears among the results. |
| ShareScenarios.GroupNameScenario | src/components/SharePermissionModal.tsx:353-365 | On the built-in data, `engineering team` plus Enter yields the tag for group `1`, named `Engineering Team`. |
| ShareScenarios.UnknownNameScenario | src/components/SharePermissionModal.tsx:322-330 | On the built-in data, `not-an-email` plus Enter is refused with the e-mail error and the text stays. |
| ShareScenarios.EmailScenario | src/components/SharePermissionModal.tsx:340-352 | On the built-in data, `user@example.com` plus Enter yields the user tag `email-<time>`. |
| ShareScenarios.ExampleAddressMatches | src/components/SharePermissionModal.tsx:290 | `user@example.com` matches the e-mail regular expression. |
| ShareScenarios.RevokeScenario | src/components/SharePermissionModal.tsx:48-73 | Revoking Bob from the built-in users leaves Alice and Carol, in that order. |
| ShareScenarios.InitialGroupIdsNonEmpty | src/components/SharePermissionModal.tsx:48-243 | The built-in and suggested groups of the starting state all have non-empty ids, and there are no tags yet. |
| ShareScenarios.InitialModal | src/components/SharePermissionModal.tsx:48-118 | The dialog's starting state: the three built-in users and two built-in groups, the suggestion pools declared at lines 214-243 stamped with the creation time, share mode, and everything else empty. The scenario lemmas run on it. |
| KnowledgeBaseCard.ToInt32 | src/components/KnowledgeBaseCard.tsx:73 | `x \| 0` yields the signed 32-bit value congruent to `x` modulo 2^32. |
| KnowledgeBaseCard.ToInt32Congruent | src/components/KnowledgeBaseCard.tsx:73 | The wrap depends only on the residue modulo 2^32. |
| KnowledgeBaseCard.ToInt32Step | src/components/KnowledgeBaseCard.tsx:73 | Wrapping the accumulator before a step does not change the wrapped result. |
| KnowledgeBaseCard.CodeUnits | src/components/KnowledgeBaseCard.tsx:73 | `charCodeAt` sees one 16-bit unit per character below U+10000, equal to the character's value. Above that it sees a high surrogate then a low surrogate, which together encode the value. |
| KnowledgeBaseCard.Utf16 | src/components/KnowledgeBaseCard.tsx:72 | The loop visits between one and two 16-bit units per character. |
| KnowledgeBaseCard.FoldIsWrappedHorner | src/components/KnowledgeBaseCard.tsx:70-76 | Wrapping at every step equals wrapping the exact base-31 polynomial once. |
| KnowledgeBaseCard.HashString | src/components/KnowledgeBaseCard.tsx:70-76 | The hash is the absolute value of the wrapped base-31 polynomial of the code units. It lies in [0, 2^31]. |
| KnowledgeBaseCard.Fold | src/components/KnowledgeBaseCard.tsx:72-74 | The loop step that multiplies by 31, adds the unit and truncates to a signed 32-bit integer, applied to each code unit in turn. `FoldIsWrappedHorner` proves it equals the exact polynomial wrapped once. |
| KnowledgeBaseCard.Hash | src/components/KnowledgeBaseCard.tsx:70-76 | The hash of an id is the absolute value of the base-31 polynomial of its UTF-16 code units, wrapped to 32 bits. It lies in [0, 2^31]. |
| KnowledgeBaseCard.HashEmpty | src/components/KnowledgeBaseCard.tsx:70-76 | The empty id hashes to 0. |
| KnowledgeBaseCard.IsSystem | src/components/KnowledgeBaseCard.tsx:67 | A card is a system card exactly when some role tag equals `system`, ignoring case. |
| KnowledgeBaseCard.Badges | src/components/KnowledgeBaseCard.tsx:78-79 | At most one badge shows. A system card shows only the megaphone. Otherwise the hash modulo 4 gives you-share for 0, others-share for 1, and nothing for 2 or 3, in both directions. |
| KnowledgeBaseCard.ShowYouShare | src/components/KnowledgeBaseCard.tsx:78 | The you-share indicator shows on a card that is not a system card and whose hash is 0 modulo 4. `Badges` proves it excludes the others. |
| KnowledgeBaseCard.ShowOthersShare | src/components/KnowledgeBaseCard.tsx:79 | The others-share indicator shows on a card that is not a system card and whose hash is 1 modulo 4. |
| KnowledgeBaseCard.EmptyIdYouShare | src/components/KnowledgeBaseCard.tsx:77-78 | A non-system card with an empty id shows the you-share badge. |
| KnowledgeBaseCard.BadgesDeterministic | src/components/KnowledgeBaseCard.tsx:69-79 | The badge depends only on the id and the role tags. |
| KnowledgeBaseCard.DisplayedEmoji | src/components/KnowledgeBaseCard.tsx:82 | The group glyph becomes the folder glyph. Any other glyph is shown as is, and the group glyph is never shown. |
| KnowledgeBaseCard.DisplayedEmojiIdempotent | src/components/KnowledgeBaseCard.tsx:82 | Substituting twice is substituting once. |
| KnowledgeBaseCard.MenuAction | src/components/KnowledgeBaseCard.tsx:49-65 | A menu item of an open menu closes it and invokes at most one callback. Otherwise the item is not rendered and nothing happens. |
| KnowledgeBaseCard.Step | src/components/KnowledgeBaseCard.tsx:33-127 | The more-button of a central card toggles the menu without calling anything. A click on the card body, or on a non-central card's more-button (it has no handler, so the click reaches the card), calls `onClick` when one is supplied and leaves the menu alone. Each menu item closes the menu and calls only its own callback, once, with the card's id. A mousedown outside closes the menu and one inside keeps it. A non-central card never changes the flag. |
| KnowledgeBaseCard.Run | src/components/KnowledgeBaseCard.tsx:30-65 | The menu flag after a sequence of events, each handled by `Step` on the flag the previous one left. `NonCentralNeverOpens` and `MoreClickTwice` state what it keeps. |
| KnowledgeBaseCard.NonCentralNeverOpens | src/components/KnowledgeBaseCard.tsx:92-130 | A non-central card's menu stays closed whatever happens. |
| KnowledgeBaseCard.MoreClickTwice | src/components/KnowledgeBaseCard.tsx:44-47 | Two clicks on the more-button restore the menu flag. |
| KnowledgeBaseCard.StepCallsCarryId | src/components/KnowledgeBaseCard.tsx:49-65 | Every callback invoked is the card's own click or carries the card's id. |

## Left out

- `src/components/Tooltip.tsx` is not part of this model. Its placement is
  floating-point arithmetic over DOM measurements, driven by scroll and resize
  listeners.
- Markup and styling are not modelled. This includes `getPermissionStyles`, the
  hover-only visibility of the more-button, and the empty state.
- Browser effects are not modelled:
  - focusing the field and placing the caret after a timeout;
  - locking the page scroll;
  - registering and removing the document listeners;
  - `window.open`;
  - `console.log`.
- The card's outside-mousedown listener is modelled as the `MouseDown` event.
- The dialog's own close, via its close button or a mousedown outside it, only
  calls the host's `onClose` and changes no state of its own. It is not
  modelled.
- `onInviteSuccess` is not modelled as firing. The prop is not destructured, so
  only a global function of that name would be called, and the model assumes
  the host defines none.
- `handleInviteUser` and `handleInviteGroup` are not modelled, because nothing
  calls them.
- The search runs in an effect after each render, and `showSearchResults`
  follows whether the trimmed query is blank. The model computes the result list
  directly from the state, so the one-render delay is left out.
- The share-mode result rows have no click handler, so they have no operation.
- Ids are Dafny strings, which hold Unicode scalar values only. A JavaScript
  id can hold an unpaired surrogate, and `charCodeAt` would feed that unit to
  the hash. The model cannot express such an id.
- The clock is a parameter. The model does not require successive reads to
  increase.
- InviteSubmit: all clock reads of one submit are taken as the same instant
  `now`. The code reads `new Date()` once per tag, so entries from one submit
  can differ in `addedAt` by a few milliseconds. `InviteSubmitNewEntities`,
  `InviteSubmitFallbackEmail` and `InviteSubmitGroupFromTag` rely on this.
- JsText.LowerChar: maps only `A`–`Z`. Unicode `toLowerCase` also folds other
  scripts and can change a string's length. Names and queries outside ASCII
  are therefore compared differently from the browser, usually more strictly.
  The search can also be more lenient: the browser lowers a final `Σ` to `ς`
  and a lone `Σ` to `σ`, so the query `Σ` does not find the name `ΑΣ` there,
  while the model finds it.
- JsText.Lower: has the same ASCII-only limitation as `LowerChar`.
- JsText.EqualsIgnoreCaseIff: has the same ASCII-only limitation as
  `LowerChar`.
- SharePermissionModal.SearchResults: its own contract states only the
  blank-query case. The invite-mode contents are proved separately by
  `InviteResultsSplit`, `InviteSearchSound` and `InviteSearchComplete*`. The
  share-mode branch is covered only through `SubmitLeavesStaleResults`.
- The card's `title` and `status` props are carried in `Card` but drive no
  logic.
- `Date` values are reduced to their millisecond time stamps.

## Findings

| source | as written | input that shows it | evidently intended | confidence | as-written member | corrected member |
|---|---|---|---|---|---|---|
| src/components/SharePermissionModal.tsx:400-432 | `handleInviteSubmit` returns to share mode without clearing `searchQuery`. The Enter path leaves the typed text in the query (lines 596-601 and 368-369). | Type `engineering team`, press Enter, then submit. The share view's read-only search box keeps the text, and its dropdown lists the new Engineering Team entry. | The submit clears the query, as the two mode switches do (lines 304-320), so the share view opens without a search dropdown. | medium; not executed | SharePermissionModal.SubmitLeavesStaleResults (about SharePermissionModal.InviteSubmit) | SharePermissionModal.ClearedSubmitHidesResults (about SharePermissionModal.InviteSubmitClearingQuery) |

=== FILE: email_check.dfy ===
/**
  The invite field's e-mail check: `/^[^\s@]+@[^\s@]+\.[^\s@]+$/.test(email)`.

  `MatchesEmailRegex` is what the regular expression accepts, read off its
  structure (three non-empty runs of `[^\s@]`, joined by `@` and `.`, anchored
  at both ends). `IsValidEmail` decides the same language by counting and
  indexing, without choosing split points; `IsValidEmailMatchesRegex` proves
  the two agree on every string.
*/
module EmailCheck {
  import opened JsText

  /** A character of the class `[^\s@]`. */
  predicate InClass(c: char) {
    !IsJsSpace(c) && c != '@'
  }

  /** `[^\s@]+`: a non-empty run of class characters. */
  predicate Run(s: string) {
    |s| > 0 && forall i :: 0 <= i < |s| ==> InClass(s[i])
  }

  /** The regex matches `s` with its `@` at index `a` and its `.` at index `d`. */
  predicate SplitAt(s: string, a: int, d: int) {
    && 0 < a && a + 1 < d && d + 1 < |s|
    && s[a] == '@' && s[d] == '.'
    && Run(s[..a]) && Run(s[a + 1..d]) && Run(s[d + 1..])
  }

  /** What the anchored regular expression accepts. */
  ghost predicate MatchesEmailRegex(s: string) {
    exists a, d :: SplitAt(s, a, d)
  }

  /** The domain has a `.` that is neither its first nor its last character. */
  predicate HasInnerDot(domain: string) {
    exists k :: 0 < k < |domain| - 1 && domain[k] == '.'
  }

  /**
    `isValidEmail`: no whitespace, exactly one `@`, a non-empty local part,
    and an inner `.` in the domain after the `@`.
  */
  predicate IsValidEmail(s: string) {
    && NoSpace(s)
    && CountChar(s, '@') == 1
    && var a := IndexOf(s, '@');
       0 < a && HasInnerDot(s[a + 1..])
  }

  lemma {:induction false} SplitCount(s: string, a: int)
    requires 0 <= a < |s| && s[a] == '@' && '@' !in s[..a] && '@' !in s[a + 1..]
    ensures CountChar(s, '@') == 1
  {
    assert s == s[..a] + ([s[a]] + s[a + 1..]);
    CountCharConcat(s[..a], [s[a]] + s[a + 1..], '@');
    CountCharConcat([s[a]], s[a + 1..], '@');
  }

  lemma {:induction false} UniqueAt(s: string, a: int)
    requires 0 <= a < |s| && s[a] == '@' && '@' !in s[..a]
    requires CountChar(s, '@') == 1
    ensures '@' !in s[a + 1..]
    ensures IndexOf(s, '@') == a
  {
    assert s == s[..a] + ([s[a]] + s[a + 1..]);
    CountCharConcat(s[..a], [s[a]] + s[a + 1..], '@');
    CountCharConcat([s[a]], s[a + 1..], '@');
  }

  /** The decision procedure accepts exactly the strings the regular expression matches. */
  lemma IsValidEmailMatchesRegex(s: string)
    ensures IsValidEmail(s) <==> MatchesEmailRegex(s)
  {
    if IsValidEmail(s) {
      var a := IndexOf(s, '@');
      assert a < |s|;
      UniqueAt(s, a);
      var dom := s[a + 1..];
      var k :| 0 < k < |dom| - 1 && dom[k] == '.';
      var d := a + 1 + k;
      assert s[d] == '.';
      assert Run(s[..a]) by {
        forall i | 0 <= i < a ensures InClass(s[..a][i]) {
          assert s[..a][i] == s[i];
          assert s[i] in s[..a];
        }
      }
      forall j | a + 1 <= j < |s| ensures InClass(s[j]) {
        assert s[a + 1..][j - a - 1] == s[j];
      }
      assert Run(s[a + 1..d]);
      assert Run(s[d + 1..]);
      assert SplitAt(s, a, d);
    }
    if MatchesEmailRegex(s) {
      var a, d :| SplitAt(s, a, d);
      assert NoSpace(s) by {
        forall i | 0 <= i < |s| ensures !IsJsSpace(s[i]) {
          if i < a {
            assert s[..a][i] == s[i];
          } else if a < i < d {
            assert s[a + 1..d][i - a - 1] == s[i];
          } else if d < i {
            assert s[d + 1..][i - d - 1] == s[i];
          }
        }
      }
      assert '@' !in s[..a] by {
        forall i | 0 <= i < a ensures s[..a][i] != '@' {}
      }
      assert '@' !in s[a + 1..] by {
        forall j | a + 1 <= j < |s| ensures s[j] != '@' {
          if j < d {
            assert s[a + 1..d][j - a - 1] == s[j];
          } else if j > d {
            assert s[d + 1..][j - d - 1] == s[j];
          }
        }
      }
      SplitCount(s, a);
      UniqueAt(s, a);
      assert s[a + 1..][d - a - 1] == '.';
    }
  }

  /** Whitespace anywhere, including around the address, makes the check fail. */
  lemma SpaceRejected(s: string, i: int)
    requires 0 <= i < |s| && IsJsSpace(s[i])
    ensures !MatchesEmailRegex(s)
  {
    IsValidEmailMatchesRegex(s);
  }
}

=== FILE: js_text.dfy ===
/**
  String primitives of the JavaScript runtime that the two components rely on:
  the `\s` character class, `String.prototype.trim`, `toLowerCase`,
  `includes`, and the decimal rendering of a number in a template string.

  `\s` and `trim` use the same character set (WhiteSpace and LineTerminator of
  ECMAScript) and are modelled exactly. `toLowerCase` is approximated by ASCII
  case folding: only `A`..`Z` are mapped.
*/
module JsText {

  /** The ECMAScript WhiteSpace and LineTerminator code points (the `\s` class). */
  predicate IsJsSpace(c: char) {
    || c == '\t' || c == '\n' || c == '\U{000B}' || c == '\U{000C}' || c == '\r'
    || c == ' ' || c == '\U{00A0}' || c == '\U{1680}'
    || ('\U{2000}' <= c <= '\U{200A}')
    || c == '\U{2028}' || c == '\U{2029}' || c == '\U{202F}' || c == '\U{205F}'
    || c == '\U{3000}' || c == '\U{FEFF}'
  }

  predicate AllSpace(s: string) {
    forall i :: 0 <= i < |s| ==> IsJsSpace(s[i])
  }

  predicate NoSpace(s: string) {
    forall i :: 0 <= i < |s| ==> !IsJsSpace(s[i])
  }

  /** Index of the first non-space character, or |s| if there is none. */
  function FirstNonSpace(s: string): (i: nat)
    ensures i <= |s|
    ensures AllSpace(s[..i])
    ensures i < |s| ==> !IsJsSpace(s[i])
  {
    if |s| == 0 || !IsJsSpace(s[0]) then 0
    else
      var k := FirstNonSpace(s[1..]);
      assert s[1..][..k] == s[1..k + 1];
      k + 1
  }

  /** One past the index of the last non-space character, or 0 if there is none. */
  function EndNonSpace(s: string): (j: nat)
    ensures j <= |s|
    ensures AllSpace(s[j..])
    ensures j > 0 ==> !IsJsSpace(s[j - 1])
  {
    if |s| == 0 || !IsJsSpace(s[|s| - 1]) then |s|
    else
      var t := s[..|s| - 1];
      var k := EndNonSpace(t);
      assert AllSpace(s[k..]) by {
        forall i | 0 <= i < |s| - k
          ensures IsJsSpace(s[k..][i])
        {
          if i < |t| - k {
            assert s[k..][i] == t[k..][i];
          }
        }
      }
      k
  }

  /** `s.trim()`: the longest slice of `s` that neither starts nor ends with a space. */
  function Trim(s: string): (t: string)
    ensures exists i, j :: 0 <= i <= j <= |s| && t == s[i..j] && AllSpace(s[..i]) && AllSpace(s[j..])
    ensures |t| > 0 ==> !IsJsSpace(t[0]) && !IsJsSpace(t[|t| - 1])
    ensures |t| == 0 <==> AllSpace(s)
  {
    var i := FirstNonSpace(s);
    if i == |s| then
      assert s[..i] == s;
      s[i..i]
    else
      var j := EndNonSpace(s);
      assert i < j;
      assert !AllSpace(s) by { assert !IsJsSpace(s[i]); }
      s[i..j]
  }

  /** A string that neither starts nor ends with a space is its own trim. */
  lemma TrimUnchanged(s: string)
    requires |s| > 0 && !IsJsSpace(s[0]) && !IsJsSpace(s[|s| - 1])
    ensures Trim(s) == s
  {
  }

  /** ASCII approximation of `toLowerCase` on one character. */
  function LowerChar(c: char): char {
    if 'A' <= c <= 'Z' then (c as int + 32) as char else c
  }

  function Lower(s: string): (r: string)
    ensures |r| == |s|
    ensures forall i :: 0 <= i < |s| ==> r[i] == LowerChar(s[i])
  {
    if |s| == 0 then [] else [LowerChar(s[0])] + Lower(s[1..])
  }

  /** `a.toLowerCase() === b.toLowerCase()`. */
  predicate EqualsIgnoreCase(a: string, b: string) {
    Lower(a) == Lower(b)
  }

  /** Case-insensitive equality holds exactly when the strings agree letter by letter up to ASCII case. */
  lemma EqualsIgnoreCaseIff(a: string, b: string)
    ensures EqualsIgnoreCase(a, b) <==>
      |a| == |b| && forall i :: 0 <= i < |a| ==> LowerChar(a[i]) == LowerChar(b[i])
  {
    if |a| == |b| && forall i :: 0 <= i < |a| ==> LowerChar(a[i]) == LowerChar(b[i]) {
      assert forall i :: 0 <= i < |a| ==> Lower(a)[i] == Lower(b)[i];
    }
  }

  /** `needle` occurs in `hay` at position `i`. */
  predicate OccursAt(hay: string, needle: string, i: int) {
    0 <= i && i + |needle| <= |hay| && hay[i..i + |needle|] == needle
  }

  /** `hay.includes(needle)`, computed by scanning start positions. */
  function Includes(hay: string, needle: string): (r: bool)
    ensures r <==> exists i :: OccursAt(hay, needle, i)
    decreases |hay|
  {
    if needle <= hay then
      assert OccursAt(hay, needle, 0);
      true
    else if |hay| == 0 then
      assert forall i :: !OccursAt(hay, needle, i);
      false
    else
      var rest := Includes(hay[1..], needle);
      forall i ensures OccursAt(hay[1..], needle, i) <==> OccursAt(hay, needle, i + 1) {
        if 0 <= i && i + |needle| <= |hay| - 1 {
          assert hay[1..][i..i + |needle|] == hay[i + 1..i + 1 + |needle|];
        }
      }
      assert !OccursAt(hay, needle, 0);
      if rest then
        var i :| OccursAt(hay[1..], needle, i);
        assert OccursAt(hay, needle, i + 1);
        true
      else
        assert forall i :: OccursAt(hay, needle, i) ==> i > 0 && OccursAt(hay[1..], needle, i - 1);
        false
  }

  /** Number of occurrences of `c` in `s`. */
  function CountChar(s: string, c: char): (n: nat)
    ensures n <= |s|
    ensures n == 0 <==> c !in s
  {
    if |s| == 0 then 0 else (if s[0] == c then 1 else 0) + CountChar(s[1..], c)
  }

  /** Index of the first occurrence of `c` in `s` (`indexOf`), or |s| when absent. */
  function IndexOf(s: string, c: char): (i: nat)
    ensures i <= |s|
    ensures i < |s| ==> s[i] == c
    ensures c !in s[..i]
  {
    if |s| == 0 then 0
    else if s[0] == c then 0
    else
      var k := IndexOf(s[1..], c);
      assert s[..k + 1] == [s[0]] + s[1..][..k];
      k + 1
  }

  lemma {:induction false} CountCharConcat(a: string, b: string, c: char)
    ensures CountChar(a + b, c) == CountChar(a, c) + CountChar(b, c)
  {
    if |a| == 0 {
      assert a + b == b;
    } else {
      assert (a + b)[1..] == a[1..] + b;
      CountCharConcat(a[1..], b, c);
    }
  }

  function DigitChar(d: nat): (c: char)
    requires d < 10
    ensures '0' <= c <= '9'
  {
    ['0', '1', '2', '3', '4', '5', '6', '7', '8', '9'][d]
  }

  function DigitValue(c: char): int {
    c as int - '0' as int
  }

  /** The decimal digits of `n` without leading zeros, as `${n}` renders a non-negative integer. */
  function NatToString(n: nat): (s: string)
    ensures |s| > 0
    ensures forall i :: 0 <= i < |s| ==> '0' <= s[i] <= '9'
    ensures |s| > 1 ==> s[0] != '0'
  {
    if n < 10 then [DigitChar(n)] else NatToString(n / 10) + [DigitChar(n % 10)]
  }

  /** The number a string of decimal digits denotes. */
  function DecimalValue(s: string): int {
    if |s| == 0 then 0 else 10 * DecimalValue(s[..|s| - 1]) + DigitValue(s[|s| - 1])
  }

  /** Reading back the rendered digits yields the number. */
  lemma {:induction false} NatToStringRoundTrip(n: nat)
    ensures DecimalValue(NatToString(n)) == n
  {
    var s := NatToString(n);
    if n >= 10 {
      NatToStringRoundTrip(n / 10);
      assert s[..|s| - 1] == NatToString(n / 10);
    }
  }
}

=== FILE: knowledge_base_card.dfy ===
/**
  The logic of the knowledge-base folder card: the deterministic share badge
  chosen from a 32-bit string hash of the card's id, the `system` role tag
  that overrides it, the folder-glyph substitution, and the open/close state
  of the three-action menu.
*/
module KnowledgeBaseCard {
  import opened JsText

  const TWO_31: int := 0x8000_0000
  const TWO_32: int := 0x1_0000_0000

  /** `x | 0` on an integer-valued number: the signed 32-bit value congruent to `x`. */
  function ToInt32(x: int): (r: int)
    ensures -TWO_31 <= r < TWO_31
    ensures (x - r) % TWO_32 == 0
  {
    var m := x % TWO_32;
    if m >= TWO_31 then m - TWO_32 else m
  }

  lemma ModShift(a: int, k: int)
    ensures (a + TWO_32 * k) % TWO_32 == a % TWO_32
  {
  }

  /** `ToInt32` depends only on the residue modulo 2^32. */
  lemma ToInt32Congruent(x: int, y: int, k: int)
    requires x == y + TWO_32 * k
    ensures ToInt32(x) == ToInt32(y)
  {
    ModShift(y, k);
  }

  /** Wrapping the accumulator before the step changes nothing after the step. */
  lemma ToInt32Step(h: int, c: int)
    ensures ToInt32(ToInt32(h) * 31 + c) == ToInt32(h * 31 + c)
  {
    var r := ToInt32(h);
    var k := (h - r) / TWO_32;
    assert h == r + TWO_32 * k;
    assert h * 31 + c == (r * 31 + c) + TWO_32 * (31 * k);
    ToInt32Congruent(h * 31 + c, r * 31 + c, 31 * k);
  }

  /** The UTF-16 code units of one character, as `charCodeAt` sees them. */
  function CodeUnits(c: char): (u: seq<int>)
    ensures 1 <= |u| <= 2
    ensures forall i :: 0 <= i < |u| ==> 0 <= u[i] < 0x1_0000
    ensures |u| == 1 <==> (c as int) < 0x1_0000
    ensures |u| == 1 ==> u[0] == c as int
    ensures |u| == 2 ==>
      && 0xD800 <= u[0] < 0xDC00 <= u[1] < 0xE000
      && 0x1_0000 + (u[0] - 0xD800) * 0x400 + (u[1] - 0xDC00) == c as int
  {
    var v := c as int;
    if v < 0x1_0000 then [v]
    else [0xD800 + (v - 0x1_0000) / 0x400, 0xDC00 + (v - 0x1_0000) % 0x400]
  }

  /** The UTF-16 code units of a string: what the hash loop iterates over. */
  function Utf16(s: string): (u: seq<int>)
    ensures |s| <= |u| <= 2 * |s|
    ensures forall i :: 0 <= i < |u| ==> 0 <= u[i] < 0x1_0000
  {
    if |s| == 0 then [] else CodeUnits(s[0]) + Utf16(s[1..])
  }

  /** The hash fold: `h = (h * 31 + unit) | 0` for each code unit, from `h`. */
  function Fold(h: int, units: seq<int>): int
    decreases |units|
  {
    if |units| == 0 then h else Fold(ToInt32(h * 31 + units[0]), units[1..])
  }

  /** The same polynomial evaluated in unbounded integers (Horner's rule, no wrap-around). */
  function Horner(h: int, units: seq<int>): int
    decreases |units|
  {
    if |units| == 0 then h else Horner(h * 31 + units[0], units[1..])
  }

  /** Wrapping at every step equals wrapping the exact polynomial once at the end. */
  lemma {:induction false} FoldIsWrappedHorner(h: int, units: seq<int>)
    ensures Fold(ToInt32(h), units) == ToInt32(Horner(h, units))
    decreases |units|
  {
    if |units| == 0 {
    } else {
      ToInt32Step(h, units[0]);
      FoldIsWrappedHorner(h * 31 + units[0], units[1..]);
    }
  }

  function Abs(x: int): int {
    if x < 0 then -x else x
  }

  /** The card's hash of a string: the fold from 0 followed by `Math.abs`. */
  function Hash(s: string): (r: int)
    ensures r == Abs(ToInt32(Horner(0, Utf16(s))))
    ensures 0 <= r <= TWO_31
  {
    FoldIsWrappedHorner(0, Utf16(s));
    Abs(Fold(0, Utf16(s)))
  }

  /** `hashString`, as the loop over `charCodeAt` computes it. */
  method HashString(s: string) returns (hash: int)
    ensures hash == Abs(ToInt32(Horner(0, Utf16(s))))
    ensures hash == Hash(s)
    ensures 0 <= hash <= TWO_31
  {
    var units := Utf16(s);
    var h := 0;
    var i := 0;
    while i < |units|
      invariant 0 <= i <= |units|
      invariant -TWO_31 <= h < TWO_31
      invariant Fold(h, units[i..]) == Fold(0, units)
    {
      assert units[i..][1..] == units[i + 1..];
      h := ToInt32(h * 31 + units[i]);
      i := i + 1;
    }
    assert units[i..] == [];
    FoldIsWrappedHorner(0, units);
    hash := Abs(h);
  }

  /** The empty id hashes to 0. */
  lemma HashEmpty()
    ensures Hash("") == 0
  {
  }

  /** Some role tag reads `system`, ignoring case. */
  function IsSystem(roleTags: seq<string>): (r: bool)
    ensures r <==> exists i :: 0 <= i < |roleTags| && EqualsIgnoreCase(roleTags[i], "system")
  {
    if |roleTags| == 0 then false
    else EqualsIgnoreCase(roleTags[0], "system") || IsSystem(roleTags[1..])
  }

  datatype Visibility = Public | Private

  /** The card's props that drive its logic. */
  datatype Card = Card(
    id: string,
    title: string,
    emoji: string,
    status: Visibility,
    isCentral: bool,
    roleTags: seq<string>)

  /** The bottom-right indicators, in the order they are rendered. */
  datatype Badge = Megaphone | YouShare | OthersShare

  predicate ShowYouShare(card: Card) {
    !IsSystem(card.roleTags) && Hash(card.id) % 4 == 0
  }

  predicate ShowOthersShare(card: Card) {
    !IsSystem(card.roleTags) && Hash(card.id) % 4 == 1
  }

  /** The badges rendered for a card. */
  function Badges(card: Card): (b: seq<Badge>)
    ensures |b| <= 1
    ensures IsSystem(card.roleTags) ==> b == [Megaphone]
    ensures !IsSystem(card.roleTags) ==>
      && (Hash(card.id) % 4 == 0 <==> b == [YouShare])
      && (Hash(card.id) % 4 == 1 <==> b == [OthersShare])
      && (Hash(card.id) % 4 >= 2 <==> b == [])
  {
    var system := IsSystem(card.roleTags);
    var b := (if system then [Megaphone] else [])
      + (if !system && ShowYouShare(card) then [YouShare] else [])
      + (if !system && ShowOthersShare(card) then [OthersShare] else []);
    assert [YouShare] != [OthersShare] && [YouShare] != [] && [OthersShare] != [];
    assert !system ==> b == (if Hash(card.id) % 4 == 0 then [YouShare]
                             else if Hash(card.id) % 4 == 1 then [OthersShare] else []);
    b
  }

  /** A non-system card with an empty id shows the you-share badge. */
  lemma EmptyIdYouShare(card: Card)
    requires card.id == "" && !IsSystem(card.roleTags)
    ensures Badges(card) == [YouShare]
  {
    HashEmpty();
  }

  /** The badge depends only on the id and the role tags. */
  lemma BadgesDeterministic(a: Card, b: Card)
    requires a.id == b.id && a.roleTags == b.roleTags
    ensures Badges(a) == Badges(b)
  {
  }

  const GroupGlyph: string := "\U{1F465}"
  const FolderGlyph: string := "\U{1F4C1}"

  /** The icon shown on the card: the group glyph is replaced by the folder glyph. */
  function DisplayedEmoji(emoji: string): (r: string)
    ensures r != GroupGlyph
    ensures emoji != GroupGlyph ==> r == emoji
    ensures emoji == GroupGlyph ==> r == FolderGlyph
  {
    if emoji == GroupGlyph then FolderGlyph else emoji
  }

  lemma DisplayedEmojiIdempotent(emoji: string)
    ensures DisplayedEmoji(DisplayedEmoji(emoji)) == DisplayedEmoji(emoji)
  {
  }

  /** Which optional callback props the host supplied. */
  datatype Callbacks = Callbacks(onClick: bool, onEdit: bool, onDelete: bool, onPermissions: bool)

  /** A callback invocation the card makes. */
  datatype Call = Clicked | Edited(id: string) | Deleted(id: string) | PermissionsOpened(id: string)

  /** Mouse events the card reacts to. `MouseDown` carries whether its target lies inside the menu's container. */
  datatype Event =
    | MoreClick
    | PermissionsClick
    | EditClick
    | DeleteClick
    | BodyClick
    | MouseDown(insideMenu: bool)

  /** The dropdown flag after an event and the callbacks the event invokes. */
  datatype Outcome = Outcome(showDropdown: bool, calls: seq<Call>)

  function CallIf(supplied: bool, c: Call): seq<Call> {
    if supplied then [c] else []
  }

  /** The new state of one menu item's click: close the menu, then invoke the item's callback with the id. */
  function MenuAction(card: Card, show: bool, supplied: bool, c: Call): (o: Outcome)
    ensures card.isCentral && show ==> !o.showDropdown && |o.calls| <= 1
    ensures !(card.isCentral && show) ==> o == Outcome(show, [])
  {
    if card.isCentral && show then Outcome(false, CallIf(supplied, c)) else Outcome(show, [])
  }

  /**
    One event on a card whose dropdown flag is `show`. Menu items exist only
    while a central card's menu is open, so their clicks are no-ops otherwise;
    the non-central card's more-button has no handler, so its click reaches the
    card body; the outside-mousedown listener sees no container on a
    non-central card.
  */
  function Step(card: Card, cbs: Callbacks, show: bool, ev: Event): (o: Outcome)
    ensures ev.MoreClick? && card.isCentral ==> o == Outcome(!show, [])
    ensures ev.BodyClick? || (ev.MoreClick? && !card.isCentral) ==>
      o == Outcome(show, if cbs.onClick then [Clicked] else [])
    ensures ev.MouseDown? ==> o.calls == [] && (o.showDropdown <==> show && (ev.insideMenu || !card.isCentral))
    ensures ev.PermissionsClick? && card.isCentral && show ==>
      o == Outcome(false, if cbs.onPermissions then [PermissionsOpened(card.id)] else [])
    ensures ev.EditClick? && card.isCentral && show ==>
      o == Outcome(false, if cbs.onEdit then [Edited(card.id)] else [])
    ensures ev.DeleteClick? && card.isCentral && show ==>
      o == Outcome(false, if cbs.onDelete then [Deleted(card.id)] else [])
    ensures !card.isCentral ==> o.showDropdown == show
    ensures |o.calls| <= 1
  {
    match ev
    case MoreClick =>
      if card.isCentral then Outcome(!show, []) else Outcome(show, CallIf(cbs.onClick, Clicked))
    case PermissionsClick => MenuAction(card, show, cbs.onPermissions, PermissionsOpened(card.id))
    case EditClick => MenuAction(card, show, cbs.onEdit, Edited(card.id))
    case DeleteClick => MenuAction(card, show, cbs.onDelete, Deleted(card.id))
    case BodyClick => Outcome(show, CallIf(cbs.onClick, Clicked))
    case MouseDown(inside) =>
      if card.isCentral && !inside then Outcome(false, []) else Outcome(show, [])
  }

  /** The dropdown flag after a sequence of events, starting from `show`. */
  function Run(card: Card, cbs: Callbacks, show: bool, events: seq<Event>): bool
    decreases |events|
  {
    if |events| == 0 then show else Run(card, cbs, Step(card, cbs, show, events[0]).showDropdown, events[1..])
  }

  /** Only central cards can open the menu: a non-central card's closed menu stays closed. */
  lemma {:induction false} NonCentralNeverOpens(card: Card, cbs: Callbacks, events: seq<Event>)
    requires !card.isCentral
    ensures !Run(card, cbs, false, events)
  {
    if |events| > 0 {
      NonCentralNeverOpens(card, cbs, events[1..]);
    }
  }

  /** Two clicks on the more-button of a central card restore the flag. */
  lemma MoreClickTwice(card: Card, cbs: Callbacks, show: bool)
    requires card.isCentral
    ensures Run(card, cbs, show, [MoreClick, MoreClick]) == show
  {
    var events := [MoreClick, MoreClick];
    assert events[1..] == [MoreClick];
    assert events[1..][1..] == [];
  }

  /** Every callback a step invokes is one of the card's own, with the card's id. */
  lemma StepCallsCarryId(card: Card, cbs: Callbacks, show: bool, ev: Event)
    ensures forall i :: 0 <= i < |Step(card, cbs, show, ev).calls| ==>
      Step(card, cbs, show, ev).calls[i] == Clicked || Step(card, cbs, show, ev).calls[i].id == card.id
  {
  }
}

=== FILE: options.dfy ===
/** The optional value used where the components hold `undefined` or an absent field. */
module Options {

  datatype Option<+T> = None | Some(value: T)
}

=== FILE: seqs.dfy ===
/**
  Sequence operations behind `Array.prototype.filter` and the stable
  `Array.prototype.sort` with a descending numeric comparator
  (`(a, b) => key(b) - key(a)`).
*/
module Seqs {

  /** `s.filter(p)`. */
  function Filter<T>(s: seq<T>, p: T -> bool): (r: seq<T>)
    ensures |r| <= |s|
    ensures forall i :: 0 <= i < |r| ==> r[i] in s && p(r[i])
    ensures forall i :: 0 <= i < |s| && p(s[i]) ==> s[i] in r
  {
    if |s| == 0 then [] else (if p(s[0]) then [s[0]] else []) + Filter(s[1..], p)
  }

  /** Filtering distributes over concatenation: survivors keep their relative order. */
  lemma {:induction false} FilterConcat<T>(a: seq<T>, b: seq<T>, p: T -> bool)
    ensures Filter(a + b, p) == Filter(a, p) + Filter(b, p)
  {
    if |a| == 0 {
      assert a + b == b;
    } else {
      assert (a + b)[1..] == a[1..] + b;
      FilterConcat(a[1..], b, p);
    }
  }

  /** A filter that rejects nothing is the identity. */
  lemma {:induction false} FilterKeepsAll<T>(s: seq<T>, p: T -> bool)
    requires forall i :: 0 <= i < |s| ==> p(s[i])
    ensures Filter(s, p) == s
  {
    if |s| > 0 {
      FilterKeepsAll(s[1..], p);
    }
  }

  /** Filtering twice with the same predicate is filtering once. */
  lemma {:induction false} FilterIdempotent<T>(s: seq<T>, p: T -> bool)
    ensures Filter(Filter(s, p), p) == Filter(s, p)
  {
    var r := Filter(s, p);
    FilterKeepsAll(r, p);
  }

  /** Number of elements of `s` that satisfy `p`. */
  function Count<T>(s: seq<T>, p: T -> bool): nat {
    if |s| == 0 then 0 else (if p(s[0]) then 1 else 0) + Count(s[1..], p)
  }

  lemma {:induction false} FilterLength<T>(s: seq<T>, p: T -> bool)
    ensures |Filter(s, p)| == Count(s, p)
  {
    if |s| > 0 {
      FilterLength(s[1..], p);
    }
  }

  /** An element that passes sits in the survivors after exactly the earlier elements that pass. */
  lemma FilterAt<T>(s: seq<T>, p: T -> bool, k: int)
    requires 0 <= k < |s| && p(s[k])
    ensures Count(s[..k], p) < |Filter(s, p)|
    ensures Filter(s, p)[Count(s[..k], p)] == s[k]
  {
    assert s == s[..k] + s[k..];
    FilterConcat(s[..k], s[k..], p);
    FilterLength(s[..k], p);
    assert s[k..][1..] == s[k + 1..];
  }

  /** Non-increasing by `key`: the order of the recency lists. */
  predicate SortedDesc<T>(s: seq<T>, key: T -> int) {
    forall i, j :: 0 <= i < j < |s| ==> key(s[i]) >= key(s[j])
  }

  lemma SortedCons<T>(a: T, s: seq<T>, key: T -> int)
    requires SortedDesc(s, key)
    requires |s| > 0 ==> key(a) >= key(s[0])
    ensures SortedDesc([a] + s, key)
  {
    var r := [a] + s;
    forall i, j | 0 <= i < j < |r| ensures key(r[i]) >= key(r[j]) {
      if i == 0 && j > 1 {
        assert key(s[0]) >= key(s[j - 1]);
      }
    }
  }

  /** Places `x` before the first element whose key is not larger than its own. */
  function InsertDesc<T>(x: T, s: seq<T>, key: T -> int): (r: seq<T>)
    requires SortedDesc(s, key)
    ensures SortedDesc(r, key)
    ensures multiset(r) == multiset(s) + multiset{x}
    ensures |r| == |s| + 1
    ensures r[0] == x || (|s| > 0 && r[0] == s[0])
  {
    if |s| == 0 || key(x) >= key(s[0]) then
      SortedCons(x, s, key);
      [x] + s
    else
      var rest := InsertDesc(x, s[1..], key);
      assert s == [s[0]] + s[1..];
      SortedCons(s[0], rest, key);
      [s[0]] + rest
  }

  /** Stable descending sort by `key`, as the recency sort of the modal. */
  function SortDesc<T>(s: seq<T>, key: T -> int): (r: seq<T>)
    ensures SortedDesc(r, key)
    ensures multiset(r) == multiset(s)
  {
    if |s| == 0 then []
    else
      assert s == [s[0]] + s[1..];
      InsertDesc(s[0], SortDesc(s[1..], key), key)
  }

  /** The elements of `s` whose key is `c`, in order. */
  function WithKey<T>(s: seq<T>, key: T -> int, c: int): (r: seq<T>)
    ensures forall i :: 0 <= i < |r| ==> key(r[i]) == c
  {
    if |s| == 0 then []
    else (if key(s[0]) == c then [s[0]] else []) + WithKey(s[1..], key, c)
  }

  lemma WithKeyCons<T>(a: T, s: seq<T>, key: T -> int, c: int)
    ensures WithKey([a] + s, key, c) == (if key(a) == c then [a] else []) + WithKey(s, key, c)
  {
    assert ([a] + s)[1..] == s;
  }

  lemma SortedTail<T>(s: seq<T>, key: T -> int)
    requires SortedDesc(s, key) && |s| > 0
    ensures SortedDesc(s[1..], key)
  {
    forall i, j | 0 <= i < j < |s| - 1 ensures key(s[1..][i]) >= key(s[1..][j]) {
      assert s[1..][i] == s[i + 1] && s[1..][j] == s[j + 1];
    }
  }

  lemma {:induction false} WithKeyInsert<T>(x: T, s: seq<T>, key: T -> int, c: int)
    requires SortedDesc(s, key)
    ensures WithKey(InsertDesc(x, s, key), key, c)
         == (if key(x) == c then [x] else []) + WithKey(s, key, c)
  {
    if |s| == 0 || key(x) >= key(s[0]) {
      WithKeyCons(x, s, key, c);
    } else {
      var tail := s[1..];
      SortedTail(s, key);
      var r := InsertDesc(x, tail, key);
      assert InsertDesc(x, s, key) == [s[0]] + r;
      var hx: seq<T> := if key(x) == c then [x] else [];
      var hs: seq<T> := if key(s[0]) == c then [s[0]] else [];
      var w := WithKey(tail, key, c);
      WithKeyInsert(x, tail, key, c);
      assert WithKey(r, key, c) == hx + w;
      WithKeyCons(s[0], r, key, c);
      assert WithKey(InsertDesc(x, s, key), key, c) == hs + (hx + w);
      assert s == [s[0]] + tail;
      WithKeyCons(s[0], tail, key, c);
      assert WithKey(s, key, c) == hs + w;
      // s[0] outranks x, so at most one of the two heads is present
      if key(x) == c {
        assert hs == [];
        assert hs + (hx + w) == hx + w;
      } else {
        assert hx == [];
        assert hs + (hx + w) == hs + w;
      }
    }
  }

  /** The sort is stable: elements with equal keys keep their input order. */
  lemma {:induction false} SortDescStable<T>(s: seq<T>, key: T -> int, c: int)
    ensures WithKey(SortDesc(s, key), key, c) == WithKey(s, key, c)
  {
    if |s| > 0 {
      SortDescStable(s[1..], key, c);
      WithKeyInsert(s[0], SortDesc(s[1..], key), key, c);
    }
  }
}

=== FILE: share_permission_modal.dfy ===
/**
  The interaction logic of the share-permission dialog of a knowledge-base
  folder. Its component state becomes the `Modal` record and each event
  handler a pure function from one `Modal` to the next. The clock reads of the
  handlers (`Date.now()`, `new Date()`) are the `now` parameter.
*/
module SharePermissionModal {
  import opened Options
  import opened JsText
  import opened EmailCheck
  import opened Seqs

  /** The access a user or role group holds on the folder. */
  datatype Permission = ViewOnly | CanEdit | FullAccess

  /** A choice in a user row's selector: a permission level, or `Revoke`, which deletes the row. */
  datatype PermissionOption = Grant(level: Permission) | Revoke

  datatype User = User(
    id: string,
    name: string,
    email: string,
    avatar: string,
    permission: Permission,
    addedAt: int)

  datatype RoleGroup = RoleGroup(
    id: string,
    name: string,
    memberCount: int,
    permission: Permission,
    addedAt: int,
    members: seq<User>)

  datatype TagKind = UserTag | GroupTag

  /** A pending invitee; `email` is absent on group tags. */
  datatype InviteTag = InviteTag(id: string, name: string, kind: TagKind, email: Option<string>)

  /** An entry of the suggestion pool or of the search results: a user (it has an email) or a group. */
  datatype Suggestion = SuggestedUser(user: User) | SuggestedGroup(group: RoleGroup)

  /** The component state. The suggestion pools never change after creation. */
  datatype Modal = Modal(
    users: seq<User>,
    roleGroups: seq<RoleGroup>,
    suggestedUsers: seq<User>,
    suggestedGroups: seq<RoleGroup>,
    expandedGroups: set<string>,
    inviteMode: bool,
    searchQuery: string,
    inviteTags: seq<InviteTag>,
    inputValue: string,
    validationError: string,
    invitePermission: Permission)

  const InvalidEmailMessage: string := "This is not a valid email"
  const DefaultAvatar: string := "https://images.unsplash.com/photo-1472099645785-5658abf4ff4e?w=32&h=32&fit=crop&crop=face"
  const DefaultMemberCount: int := 5

  // ---------------------------------------------------------------------------
  // Share mode: permission selectors and group expansion
  // ---------------------------------------------------------------------------

  /** The users whose id differs from `id`, in their original order. */
  function WithoutUser(users: seq<User>, id: string): (r: seq<User>)
    ensures |r| <= |users|
    ensures forall i :: 0 <= i < |r| ==> r[i].id != id && r[i] in users
    ensures forall i :: 0 <= i < |users| && users[i].id != id ==> users[i] in r
  {
    Filter(users, (u: User) => u.id != id)
  }

  /** Removing an id from a concatenation removes it from each part: survivors keep their order. */
  lemma WithoutUserConcat(a: seq<User>, b: seq<User>, id: string)
    ensures WithoutUser(a + b, id) == WithoutUser(a, id) + WithoutUser(b, id)
  {
    FilterConcat(a, b, (u: User) => u.id != id);
  }

  /** Revoking an id nobody holds changes nothing. */
  lemma WithoutUserAbsent(users: seq<User>, id: string)
    requires forall i :: 0 <= i < |users| ==> users[i].id != id
    ensures WithoutUser(users, id) == users
  {
    FilterKeepsAll(users, (u: User) => u.id != id);
  }

  /** Every row with id `id` gets permission `p`; every other field and row is kept. */
  function SetUserPermission(users: seq<User>, id: string, p: Permission): (r: seq<User>)
    ensures |r| == |users|
    ensures forall i :: 0 <= i < |users| ==> r[i].(permission := users[i].permission) == users[i]
    ensures forall i :: 0 <= i < |users| && users[i].id == id ==> r[i].permission == p
    ensures forall i :: 0 <= i < |users| && users[i].id != id ==> r[i] == users[i]
  {
    if |users| == 0 then []
    else
      [if users[0].id == id then users[0].(permission := p) else users[0]]
      + SetUserPermission(users[1..], id, p)
  }

  function SetGroupPermission(groups: seq<RoleGroup>, id: string, p: Permission): (r: seq<RoleGroup>)
    ensures |r| == |groups|
    ensures forall i :: 0 <= i < |groups| ==> r[i].(permission := groups[i].permission) == groups[i]
    ensures forall i :: 0 <= i < |groups| && groups[i].id == id ==> r[i].permission == p
    ensures forall i :: 0 <= i < |groups| && groups[i].id != id ==> r[i] == groups[i]
  {
    if |groups| == 0 then []
    else
      [if groups[0].id == id then groups[0].(permission := p) else groups[0]]
      + SetGroupPermission(groups[1..], id, p)
  }

  /** `handlePermissionChange`: `Revoke` deletes the user's rows, any other choice sets their permission. */
  function ChangePermission(m: Modal, userId: string, choice: PermissionOption): (r: Modal)
    ensures r == m.(users := r.users)
    ensures choice.Revoke? ==>
      && (forall i :: 0 <= i < |r.users| ==> r.users[i].id != userId && r.users[i] in m.users)
      && (forall i :: 0 <= i < |m.users| && m.users[i].id != userId ==> m.users[i] in r.users)
    ensures choice.Grant? ==>
      && |r.users| == |m.users|
      && (forall i :: 0 <= i < |m.users| ==> r.users[i].(permission := m.users[i].permission) == m.users[i])
      && (forall i :: 0 <= i < |m.users| && m.users[i].id == userId ==> r.users[i].permission == choice.level)
      && (forall i :: 0 <= i < |m.users| && m.users[i].id != userId ==> r.users[i] == m.users[i])
  {
    match choice
    case Revoke => m.(users := WithoutUser(m.users, userId))
    case Grant(level) => m.(users := SetUserPermission(m.users, userId, level))
  }

  /** Choosing the same level twice is choosing it once. */
  lemma {:induction false} SetUserPermissionIdempotent(users: seq<User>, id: string, p: Permission)
    ensures SetUserPermission(SetUserPermission(users, id, p), id, p) == SetUserPermission(users, id, p)
  {
    if |users| > 0 {
      SetUserPermissionIdempotent(users[1..], id, p);
    }
  }

  /** A later choice for the same user overrides an earlier one. */
  lemma {:induction false} SetUserPermissionOverride(users: seq<User>, id: string, p: Permission, q: Permission)
    ensures SetUserPermission(SetUserPermission(users, id, p), id, q) == SetUserPermission(users, id, q)
  {
    if |users| > 0 {
      SetUserPermissionOverride(users[1..], id, p, q);
    }
  }

  /** Revoking after a level change is the same as revoking straight away. */
  lemma {:induction false} RevokeAfterGrant(users: seq<User>, id: string, p: Permission)
    ensures WithoutUser(SetUserPermission(users, id, p), id) == WithoutUser(users, id)
  {
    if |users| > 0 {
      RevokeAfterGrant(users[1..], id, p);
      var s := SetUserPermission(users, id, p);
      assert s == [s[0]] + s[1..];
      assert users == [users[0]] + users[1..];
      WithoutUserConcat([s[0]], s[1..], id);
      WithoutUserConcat([users[0]], users[1..], id);
    }
  }

  /** `handleGroupPermissionChange`: every group with that id gets the level; nothing else changes. */
  function ChangeGroupPermission(m: Modal, groupId: string, p: Permission): (r: Modal)
    ensures r == m.(roleGroups := r.roleGroups)
    ensures |r.roleGroups| == |m.roleGroups|
    ensures forall i :: 0 <= i < |m.roleGroups| ==>
      r.roleGroups[i].(permission := m.roleGroups[i].permission) == m.roleGroups[i]
    ensures forall i :: 0 <= i < |m.roleGroups| ==>
      r.roleGroups[i].permission == (if m.roleGroups[i].id == groupId then p else m.roleGroups[i].permission)
  {
    m.(roleGroups := SetGroupPermission(m.roleGroups, groupId, p))
  }

  /** `toggleGroupExpansion`: flips whether `groupId` is expanded and nothing else. */
  function ToggleGroupExpansion(m: Modal, groupId: string): (r: Modal)
    ensures r == m.(expandedGroups := r.expandedGroups)
    ensures groupId in r.expandedGroups <==> groupId !in m.expandedGroups
    ensures forall g :: g != groupId ==> (g in r.expandedGroups <==> g in m.expandedGroups)
  {
    if groupId in m.expandedGroups then m.(expandedGroups := m.expandedGroups - {groupId})
    else m.(expandedGroups := m.expandedGroups + {groupId})
  }

  /** Expand, collapse: back where it started. */
  lemma ToggleTwice(m: Modal, groupId: string)
    ensures ToggleGroupExpansion(ToggleGroupExpansion(m, groupId), groupId) == m
  {
    var r := ToggleGroupExpansion(ToggleGroupExpansion(m, groupId), groupId);
    assert r.expandedGroups == m.expandedGroups;
  }

  /** The member rows shown under a group row: all its members while expanded, none otherwise. */
  function VisibleMembers(m: Modal, group: RoleGroup): (r: seq<User>)
    ensures group.id in m.expandedGroups ==> r == group.members
    ensures group.id !in m.expandedGroups ==> r == []
  {
    if group.id in m.expandedGroups then group.members else []
  }

  /** Clicking a group's row shows its members when they were hidden and hides them when shown. */
  lemma ToggleShowsOrHides(m: Modal, group: RoleGroup)
    ensures VisibleMembers(ToggleGroupExpansion(m, group.id), group)
      == (if group.id in m.expandedGroups then [] else group.members)
  {
  }

  /** The recency order of the share list: latest `addedAt` first, ties in list order. */
  function SortedUsers(m: Modal): (r: seq<User>)
    ensures SortedDesc(r, (u: User) => u.addedAt)
    ensures multiset(r) == multiset(m.users)
  {
    SortDesc(m.users, (u: User) => u.addedAt)
  }

  function SortedRoleGroups(m: Modal): (r: seq<RoleGroup>)
    ensures SortedDesc(r, (g: RoleGroup) => g.addedAt)
    ensures multiset(r) == multiset(m.roleGroups)
  {
    SortDesc(m.roleGroups, (g: RoleGroup) => g.addedAt)
  }

  /** Users added at the same instant are listed in the order they are stored. */
  lemma SortedUsersStable(m: Modal, t: int)
    ensures WithKey(SortedUsers(m), (u: User) => u.addedAt, t) == WithKey(m.users, (u: User) => u.addedAt, t)
  {
    SortDescStable(m.users, (u: User) => u.addedAt, t);
  }

  // ---------------------------------------------------------------------------
  // Switching modes and editing the invite field
  // ---------------------------------------------------------------------------

  /** `handleInviteClick`: invite mode with an empty query, field, tag list and error. */
  function EnterInvite(m: Modal): (r: Modal)
    ensures r.inviteMode
    ensures r.searchQuery == "" && r.inputValue == "" && r.inviteTags == [] && r.validationError == ""
    ensures r.(inviteMode := m.inviteMode, searchQuery := m.searchQuery, inputValue := m.inputValue,
               inviteTags := m.inviteTags, validationError := m.validationError) == m
  {
    m.(inviteMode := true, searchQuery := "", inputValue := "", inviteTags := [], validationError := "")
  }

  /** `handleBackToShare`: share mode with the same resets. */
  function BackToShare(m: Modal): (r: Modal)
    ensures !r.inviteMode
    ensures r.searchQuery == "" && r.inputValue == "" && r.inviteTags == [] && r.validationError == ""
    ensures r.(inviteMode := m.inviteMode, searchQuery := m.searchQuery, inputValue := m.inputValue,
               inviteTags := m.inviteTags, validationError := m.validationError) == m
  {
    m.(inviteMode := false, searchQuery := "", inputValue := "", inviteTags := [], validationError := "")
  }

  /** A round trip through invite mode discards everything typed there and keeps the shares. */
  lemma InviteRoundTrip(m: Modal)
    requires !m.inviteMode && m.searchQuery == "" && m.inputValue == "" && m.inviteTags == [] && m.validationError == ""
    ensures BackToShare(EnterInvite(m)) == m
  {
  }

  /** The invite field's `onChange`: the text drives both the field and the search; the error is cleared. */
  function TypeInput(m: Modal, text: string): (r: Modal)
    ensures r.inputValue == text && r.searchQuery == text && r.validationError == ""
    ensures r.(inputValue := m.inputValue, searchQuery := m.searchQuery, validationError := m.validationError) == m
  {
    m.(inputValue := text, searchQuery := text, validationError := "")
  }

  /** The invite permission selector. */
  function SelectInvitePermission(m: Modal, p: Permission): (r: Modal)
    ensures r.invitePermission == p && r.(invitePermission := m.invitePermission) == m
  {
    m.(invitePermission := p)
  }

  // ---------------------------------------------------------------------------
  // Validating the field and creating tags
  // ---------------------------------------------------------------------------

  /** Some group of `groups` has `name`, compared case-insensitively. */
  function AnyGroupNamed(groups: seq<RoleGroup>, name: string): (r: bool)
    ensures r <==> exists i :: 0 <= i < |groups| && EqualsIgnoreCase(groups[i].name, name)
  {
    if |groups| == 0 then false
    else EqualsIgnoreCase(groups[0].name, name) || AnyGroupNamed(groups[1..], name)
  }

  /** A name occurs in a concatenation exactly when it occurs in one of the parts. */
  lemma {:induction false} AnyGroupNamedConcat(a: seq<RoleGroup>, b: seq<RoleGroup>, name: string)
    ensures AnyGroupNamed(a + b, name) == (AnyGroupNamed(a, name) || AnyGroupNamed(b, name))
  {
    if |a| > 0 {
      assert (a + b)[1..] == a[1..] + b;
      AnyGroupNamedConcat(a[1..], b, name);
    } else {
      assert a + b == b;
    }
  }

  /** `isValidRoleGroupName`: the name of an existing or a suggested group, ignoring case. */
  function IsValidRoleGroupName(m: Modal, name: string): (r: bool)
    ensures r <==> exists i :: (0 <= i < |m.roleGroups + m.suggestedGroups|
      && EqualsIgnoreCase((m.roleGroups + m.suggestedGroups)[i].name, name))
  {
    var inExisting := AnyGroupNamed(m.roleGroups, name);
    var inSuggested := AnyGroupNamed(m.suggestedGroups, name);
    AnyGroupNamedConcat(m.roleGroups, m.suggestedGroups, name);
    inExisting || inSuggested
  }

  /** The first group whose name equals `name` ignoring case, if any. */
  function FindGroupNamed(groups: seq<RoleGroup>, name: string): (r: Option<RoleGroup>)
    ensures r.None? <==> !exists i :: 0 <= i < |groups| && EqualsIgnoreCase(groups[i].name, name)
    ensures r.Some? ==> exists i :: (0 <= i < |groups| && groups[i] == r.value
      && EqualsIgnoreCase(r.value.name, name)
      && forall j :: 0 <= j < i ==> !EqualsIgnoreCase(groups[j].name, name))
  {
    if |groups| == 0 then None
    else if EqualsIgnoreCase(groups[0].name, name) then Some(groups[0])
    else
      var r := FindGroupNamed(groups[1..], name);
      if r.Some? then
        var i :| 0 <= i < |groups[1..]| && groups[1..][i] == r.value
          && EqualsIgnoreCase(r.value.name, name)
          && forall j :: 0 <= j < i ==> !EqualsIgnoreCase(groups[1..][j].name, name);
        assert groups[i + 1] == r.value;
        assert forall j :: 0 <= j < i + 1 ==> !EqualsIgnoreCase(groups[j].name, name) by {
          forall j | 0 <= j < i + 1 ensures !EqualsIgnoreCase(groups[j].name, name) {
            if j > 0 {
              assert groups[j] == groups[1..][j - 1];
            }
          }
        }
        r
      else
        assert forall i :: 1 <= i < |groups| ==> groups[i] == groups[1..][i - 1];
        r
  }

  /** JavaScript `a || b` on an optional string: `a` unless it is absent or empty. */
  function OrElse(a: Option<string>, b: string): (r: string)
    ensures a.Some? && a.value != "" ==> r == a.value
    ensures a.None? || a.value == "" ==> r == b
  {
    if a.Some? && a.value != "" then a.value else b
  }

  /** The tag an accepted e-mail address becomes; the id is `email-` and the time. */
  function EmailTag(address: string, now: nat): InviteTag {
    InviteTag("email-" + NatToString(now), address, UserTag, Some(address))
  }

  /** The tag an accepted group name becomes: the matched group's id and name, with fallbacks. */
  function GroupTagFor(m: Modal, name: string, now: nat): InviteTag {
    var matched := FindGroupNamed(m.roleGroups + m.suggestedGroups, name);
    var id := if matched.Some? then Some(matched.value.id) else None;
    var shown := if matched.Some? then Some(matched.value.name) else None;
    InviteTag(OrElse(id, "group-" + NatToString(now)), OrElse(shown, name), GroupTag, None)
  }

  /** `addTagFromInput`: re-validates the trimmed field and appends one tag when it passes. */
  function AddTagFromInput(m: Modal, now: nat): (r: Modal)
    ensures Trim(m.inputValue) == "" ==> r == m
    ensures r.inviteTags == m.inviteTags
      || (|r.inviteTags| == |m.inviteTags| + 1 && r.inviteTags[..|m.inviteTags|] == m.inviteTags)
    ensures r == m.(inviteTags := r.inviteTags, inputValue := r.inputValue, validationError := r.validationError)
  {
    var t := Trim(m.inputValue);
    if t == "" then m
    else if '@' in t then
      if !IsValidEmail(t) then m.(validationError := InvalidEmailMessage)
      else m.(inviteTags := m.inviteTags + [EmailTag(t, now)], inputValue := "", validationError := "")
    else if !IsValidRoleGroupName(m, t) then m.(validationError := InvalidEmailMessage)
    else m.(inviteTags := m.inviteTags + [GroupTagFor(m, t, now)], inputValue := "", validationError := "")
  }

  /**
    What the field's validation accepts, stated through the regular expression
    and the group pool rather than through the decision procedures.
  */
  ghost predicate Acceptable(m: Modal, t: string) {
    if '@' in t then MatchesEmailRegex(t)
    else exists i :: (0 <= i < |m.roleGroups + m.suggestedGroups|
      && EqualsIgnoreCase((m.roleGroups + m.suggestedGroups)[i].name, t))
  }

  /** `handleInputKeyDown`: Enter on a non-blank field either reports the error or adds a tag. */
  function KeyDown(m: Modal, key: string, now: nat): (r: Modal)
    ensures key != "Enter" || Trim(m.inputValue) == "" ==> r == m
    ensures key == "Enter" && Trim(m.inputValue) != "" && !Acceptable(m, Trim(m.inputValue)) ==>
      r == m.(validationError := InvalidEmailMessage)
    ensures key == "Enter" && Trim(m.inputValue) != "" && Acceptable(m, Trim(m.inputValue)) ==>
      && r == m.(inviteTags := r.inviteTags, inputValue := "", validationError := "")
      && |r.inviteTags| == |m.inviteTags| + 1
      && r.inviteTags[..|m.inviteTags|] == m.inviteTags
  {
    var t := Trim(m.inputValue);
    if key == "Enter" && t != "" then
      IsValidEmailMatchesRegex(t);
      if ('@' in t && !IsValidEmail(t)) || ('@' !in t && !IsValidRoleGroupName(m, t)) then
        m.(validationError := InvalidEmailMessage)
      else
        var r := AddTagFromInput(m, now);
        assert r.inviteTags[..|m.inviteTags|] == m.inviteTags;
        r
    else m
  }

  /** An accepted address becomes a user tag whose name and email are the trimmed text. */
  lemma KeyDownEmail(m: Modal, now: nat)
    requires '@' in Trim(m.inputValue) && MatchesEmailRegex(Trim(m.inputValue))
    ensures KeyDown(m, "Enter", now).inviteTags == m.inviteTags + [EmailTag(Trim(m.inputValue), now)]
    ensures var tag := EmailTag(Trim(m.inputValue), now);
      tag.kind == UserTag && tag.name == Trim(m.inputValue) && tag.email == Some(Trim(m.inputValue))
  {
    IsValidEmailMatchesRegex(Trim(m.inputValue));
  }

  /** The tag built for a name that some group carries: the first such group's name, and its id unless empty. */
  lemma GroupTagForFirstMatch(m: Modal, t: string, now: nat)
    requires t != ""
    requires exists i :: (0 <= i < |m.roleGroups + m.suggestedGroups|
      && EqualsIgnoreCase((m.roleGroups + m.suggestedGroups)[i].name, t))
    ensures exists i :: (0 <= i < |m.roleGroups + m.suggestedGroups| &&
      var g := (m.roleGroups + m.suggestedGroups)[i];
      var tag := GroupTagFor(m, t, now);
      && EqualsIgnoreCase(g.name, t)
      && (forall j :: 0 <= j < i ==> !EqualsIgnoreCase((m.roleGroups + m.suggestedGroups)[j].name, t))
      && tag.kind == GroupTag && tag.email == None
      && tag.name == g.name
      && (g.id != "" ==> tag.id == g.id)
      && (g.id == "" ==> tag.id == "group-" + NatToString(now)))
  {
    var pool := m.roleGroups + m.suggestedGroups;
    var matched := FindGroupNamed(pool, t);
    var i :| 0 <= i < |pool| && pool[i] == matched.value
      && EqualsIgnoreCase(matched.value.name, t)
      && forall j :: 0 <= j < i ==> !EqualsIgnoreCase(pool[j].name, t);
    assert matched.value.name != "" by {
      assert |Lower(matched.value.name)| == |Lower(t)|;
    }
  }

  /**
    An accepted group name becomes a group tag carrying the first matching
    group's name, and its id unless that id is empty.
  */
  lemma KeyDownGroup(m: Modal, now: nat)
    requires Trim(m.inputValue) != "" && '@' !in Trim(m.inputValue) && Acceptable(m, Trim(m.inputValue))
    ensures exists i :: (0 <= i < |m.roleGroups + m.suggestedGroups| &&
      var g := (m.roleGroups + m.suggestedGroups)[i];
      var tag := KeyDown(m, "Enter", now).inviteTags[|m.inviteTags|];
      && EqualsIgnoreCase(g.name, Trim(m.inputValue))
      && (forall j :: 0 <= j < i ==> !EqualsIgnoreCase((m.roleGroups + m.suggestedGroups)[j].name, Trim(m.inputValue)))
      && tag.kind == GroupTag && tag.email == None
      && tag.name == g.name
      && (g.id != "" ==> tag.id == g.id)
      && (g.id == "" ==> tag.id == "group-" + NatToString(now)))
  {
    var t := Trim(m.inputValue);
    assert KeyDown(m, "Enter", now).inviteTags[|m.inviteTags|] == GroupTagFor(m, t, now);
    GroupTagForFirstMatch(m, t, now);
  }

  /** A name matching the first existing group yields a tag for exactly that group. */
  lemma KeyDownFirstGroup(m: Modal, now: nat)
    requires Trim(m.inputValue) != "" && '@' !in Trim(m.inputValue)
    requires |m.roleGroups| > 0 && EqualsIgnoreCase(m.roleGroups[0].name, Trim(m.inputValue))
    requires m.roleGroups[0].id != ""
    ensures KeyDown(m, "Enter", now).inviteTags
         == m.inviteTags + [InviteTag(m.roleGroups[0].id, m.roleGroups[0].name, GroupTag, None)]
  {
    var t := Trim(m.inputValue);
    var pool := m.roleGroups + m.suggestedGroups;
    assert pool[0] == m.roleGroups[0];
    assert Acceptable(m, t);
    assert FindGroupNamed(pool, t) == Some(m.roleGroups[0]);
    var r := KeyDown(m, "Enter", now);
    assert r.inviteTags[|m.inviteTags|] == GroupTagFor(m, t, now);
    assert r.inviteTags == r.inviteTags[..|m.inviteTags|] + [r.inviteTags[|m.inviteTags|]];
  }

  /**
    Enter followed by a submit leaves the typed text in the search query, so
    the dialog returns to share mode with a non-blank query and the share-mode
    search branch runs.
  */
  lemma ShareSearchAfterSubmit(m: Modal, text: string, now: nat)
    requires Trim(text) != "" && Acceptable(m, Trim(text))
    ensures var r := InviteSubmit(KeyDown(TypeInput(m, text), "Enter", now), now);
      !r.inviteMode && r.searchQuery == text && Trim(r.searchQuery) != ""
  {
    var m1 := TypeInput(m, text);
    assert Acceptable(m1, Trim(text));
    var m2 := KeyDown(m1, "Enter", now);
    assert |m2.inviteTags| > 0;
  }

  /** A rejected entry leaves the tags and the field as they were and shows the error. */
  lemma KeyDownRejectKeepsInput(m: Modal, now: nat)
    requires Trim(m.inputValue) != "" && !Acceptable(m, Trim(m.inputValue))
    ensures var r := KeyDown(m, "Enter", now);
      r.inviteTags == m.inviteTags && r.inputValue == m.inputValue && r.validationError == InvalidEmailMessage
  {
  }

  /** `removeInviteTag`: drops every tag with that id and keeps the rest in order. */
  function RemoveInviteTag(m: Modal, tagId: string): (r: Modal)
    ensures r == m.(inviteTags := r.inviteTags)
    ensures forall i :: 0 <= i < |r.inviteTags| ==> r.inviteTags[i].id != tagId && r.inviteTags[i] in m.inviteTags
    ensures forall i :: 0 <= i < |m.inviteTags| && m.inviteTags[i].id != tagId ==> m.inviteTags[i] in r.inviteTags
  {
    m.(inviteTags := Filter(m.inviteTags, (t: InviteTag) => t.id != tagId))
  }

  /** Removing a tag that was just added by clicking restores the tag list when the id was new. */
  lemma RemoveAfterAdd(tags: seq<InviteTag>, tag: InviteTag)
    requires forall i :: 0 <= i < |tags| ==> tags[i].id != tag.id
    ensures Filter(tags + [tag], (t: InviteTag) => t.id != tag.id) == tags
  {
    FilterConcat(tags, [tag], (t: InviteTag) => t.id != tag.id);
    FilterKeepsAll(tags, (t: InviteTag) => t.id != tag.id);
  }

  /** The tag a clicked suggestion becomes. */
  function SuggestionTag(item: Suggestion): (t: InviteTag)
    ensures item.SuggestedUser? ==> t == InviteTag(item.user.id, item.user.name, UserTag, Some(item.user.email))
    ensures item.SuggestedGroup? ==> t == InviteTag(item.group.id, item.group.name, GroupTag, None)
  {
    match item
    case SuggestedUser(u) => InviteTag(u.id, u.name, UserTag, Some(u.email))
    case SuggestedGroup(g) => InviteTag(g.id, g.name, GroupTag, None)
  }

  /** `addSuggestedToTags`: appends the item's tag without validation, even when it is already selected. */
  function AddSuggestedToTags(m: Modal, item: Suggestion): (r: Modal)
    ensures r.inviteTags == m.inviteTags + [SuggestionTag(item)]
    ensures r.(inviteTags := m.inviteTags) == m
  {
    m.(inviteTags := m.inviteTags + [SuggestionTag(item)])
  }

  /** Removing a just-added suggestion whose id no other tag carries restores the dialog. */
  lemma RemoveAfterAddSuggested(m: Modal, item: Suggestion)
    requires forall i :: 0 <= i < |m.inviteTags| ==> m.inviteTags[i].id != SuggestionTag(item).id
    ensures RemoveInviteTag(AddSuggestedToTags(m, item), SuggestionTag(item).id) == m
  {
    RemoveAfterAdd(m.inviteTags, SuggestionTag(item));
  }

  /** A click on a search result: adds its tag and clears the query, the field and the error. */
  function PickSearchResult(m: Modal, item: Suggestion): (r: Modal)
    ensures r.inviteTags == m.inviteTags + [SuggestionTag(item)]
    ensures r.searchQuery == "" && r.inputValue == "" && r.validationError == ""
    ensures r.(inviteTags := m.inviteTags, searchQuery := m.searchQuery, inputValue := m.inputValue,
               validationError := m.validationError) == m
  {
    AddSuggestedToTags(m, item).(searchQuery := "", inputValue := "", validationError := "")
  }

  /**
    Removing the tag of a just-picked result, when no earlier tag carries its
    id, leaves the dialog as the click left everything but the tags: query,
    field and error cleared.
  */
  lemma RemoveAfterPick(m: Modal, item: Suggestion)
    requires forall i :: 0 <= i < |m.inviteTags| ==> m.inviteTags[i].id != SuggestionTag(item).id
    ensures RemoveInviteTag(PickSearchResult(m, item), SuggestionTag(item).id)
      == m.(searchQuery := "", inputValue := "", validationError := "")
  {
    RemoveAfterAdd(m.inviteTags, SuggestionTag(item));
  }

  // ---------------------------------------------------------------------------
  // Submitting the invitation
  // ---------------------------------------------------------------------------

  /** The user a user tag becomes: e-mail falls back to `<name>@company.com`. */
  function NewUser(t: InviteTag, p: Permission, now: int): User {
    User(t.id, t.name, OrElse(t.email, t.name + "@company.com"), DefaultAvatar, p, now)
  }

  function NewGroup(t: InviteTag, p: Permission, now: int): RoleGroup {
    RoleGroup(t.id, t.name, DefaultMemberCount, p, now, [])
  }

  predicate IsUserTag(t: InviteTag) { t.kind == UserTag }

  predicate IsGroupTag(t: InviteTag) { t.kind == GroupTag }

  /** The users the user tags become, in tag order. */
  function NewUsers(tags: seq<InviteTag>, p: Permission, now: int): (r: seq<User>)
    ensures |r| == Count(tags, (t: InviteTag) => t.kind == UserTag)
    ensures forall i :: 0 <= i < |r| ==> r[i].permission == p && r[i].addedAt == now
  {
    if |tags| == 0 then []
    else (if tags[0].kind == UserTag then [NewUser(tags[0], p, now)] else []) + NewUsers(tags[1..], p, now)
  }

  /** The groups the group tags become, in tag order. */
  function NewGroups(tags: seq<InviteTag>, p: Permission, now: int): (r: seq<RoleGroup>)
    ensures |r| == Count(tags, (t: InviteTag) => t.kind == GroupTag)
    ensures forall i :: 0 <= i < |r| ==> r[i].permission == p && r[i].addedAt == now && r[i].members == []
  {
    if |tags| == 0 then []
    else (if tags[0].kind == GroupTag then [NewGroup(tags[0], p, now)] else []) + NewGroups(tags[1..], p, now)
  }

  /** The i-th new user is made from the i-th user tag. */
  lemma {:induction false} NewUsersFromTags(tags: seq<InviteTag>, p: Permission, now: int)
    ensures |NewUsers(tags, p, now)| == |Filter(tags, IsUserTag)|
    ensures forall i :: 0 <= i < |NewUsers(tags, p, now)| ==>
      NewUsers(tags, p, now)[i] == NewUser(Filter(tags, IsUserTag)[i], p, now)
  {
    if |tags| > 0 {
      NewUsersFromTags(tags[1..], p, now);
    }
  }

  /** The i-th new group is made from the i-th group tag. */
  lemma {:induction false} NewGroupsFromTags(tags: seq<InviteTag>, p: Permission, now: int)
    ensures |NewGroups(tags, p, now)| == |Filter(tags, IsGroupTag)|
    ensures forall i :: 0 <= i < |NewGroups(tags, p, now)| ==>
      NewGroups(tags, p, now)[i] == NewGroup(Filter(tags, IsGroupTag)[i], p, now)
  {
    if |tags| > 0 {
      NewGroupsFromTags(tags[1..], p, now);
    }
  }

  function Reverse<T>(s: seq<T>): (r: seq<T>)
    ensures |r| == |s|
    ensures forall i :: 0 <= i < |s| ==> r[i] == s[|s| - 1 - i]
  {
    if |s| == 0 then [] else Reverse(s[1..]) + [s[0]]
  }

  /**
    The `forEach` over the tags as it acts on the user list: each user tag's
    user is prepended, one after the other. Group tags leave the list alone.
  */
  function PrependUsers(tags: seq<InviteTag>, p: Permission, now: int, users: seq<User>): seq<User>
    decreases |tags|
  {
    if |tags| == 0 then users
    else PrependUsers(tags[1..], p, now, if tags[0].kind == UserTag then [NewUser(tags[0], p, now)] + users else users)
  }

  /** The same `forEach` as it acts on the group list. */
  function PrependGroups(tags: seq<InviteTag>, p: Permission, now: int, groups: seq<RoleGroup>): seq<RoleGroup>
    decreases |tags|
  {
    if |tags| == 0 then groups
    else PrependGroups(tags[1..], p, now, if tags[0].kind == GroupTag then [NewGroup(tags[0], p, now)] + groups else groups)
  }

  lemma ReverseCons<T>(x: T, s: seq<T>)
    ensures Reverse([x] + s) == Reverse(s) + [x]
  {
    assert ([x] + s)[1..] == s;
  }

  /** Prepending one at a time puts the new users in reverse tag order in front of the old ones. */
  lemma {:induction false} PrependUsersReverses(tags: seq<InviteTag>, p: Permission, now: int, users: seq<User>)
    ensures PrependUsers(tags, p, now, users) == Reverse(NewUsers(tags, p, now)) + users
    decreases |tags|
  {
    if |tags| > 0 {
      var t := tags[0];
      var rest := tags[1..];
      var nu := NewUsers(rest, p, now);
      if t.kind == UserTag {
        var x := NewUser(t, p, now);
        PrependUsersReverses(rest, p, now, [x] + users);
        assert NewUsers(tags, p, now) == [x] + nu;
        ReverseCons(x, nu);
        assert Reverse(nu) + ([x] + users) == (Reverse(nu) + [x]) + users;
      } else {
        PrependUsersReverses(rest, p, now, users);
        assert NewUsers(tags, p, now) == nu;
      }
    }
  }

  /** Prepending one at a time puts the new groups in reverse tag order in front of the old ones. */
  lemma {:induction false} PrependGroupsReverses(tags: seq<InviteTag>, p: Permission, now: int, groups: seq<RoleGroup>)
    ensures PrependGroups(tags, p, now, groups) == Reverse(NewGroups(tags, p, now)) + groups
    decreases |tags|
  {
    if |tags| > 0 {
      var t := tags[0];
      var rest := tags[1..];
      var ng := NewGroups(rest, p, now);
      if t.kind == GroupTag {
        var x := NewGroup(t, p, now);
        PrependGroupsReverses(rest, p, now, [x] + groups);
        assert NewGroups(tags, p, now) == [x] + ng;
        ReverseCons(x, ng);
        assert Reverse(ng) + ([x] + groups) == (Reverse(ng) + [x]) + groups;
      } else {
        PrependGroupsReverses(rest, p, now, groups);
        assert NewGroups(tags, p, now) == ng;
      }
    }
  }

  /**
    `handleInviteSubmit`: with no tags nothing happens; otherwise every tag
    becomes a user or a group at the front of its list, the tags, field and
    error are cleared and the modal returns to share mode. The search query is
    left as it was.
  */
  function InviteSubmit(m: Modal, now: int): (r: Modal)
    ensures |m.inviteTags| == 0 ==> r == m
    ensures |m.inviteTags| > 0 ==>
      && r.users == Reverse(NewUsers(m.inviteTags, m.invitePermission, now)) + m.users
      && r.roleGroups == Reverse(NewGroups(m.inviteTags, m.invitePermission, now)) + m.roleGroups
      && r.inviteTags == [] && r.inputValue == "" && r.validationError == "" && !r.inviteMode
      && r == m.(users := r.users, roleGroups := r.roleGroups, inviteTags := [], inputValue := "",
                 validationError := "", inviteMode := false)
  {
    if |m.inviteTags| == 0 then m
    else
      var users := PrependUsers(m.inviteTags, m.invitePermission, now, m.users);
      var groups := PrependGroups(m.inviteTags, m.invitePermission, now, m.roleGroups);
      PrependUsersReverses(m.inviteTags, m.invitePermission, now, m.users);
      PrependGroupsReverses(m.inviteTags, m.invitePermission, now, m.roleGroups);
      m.(users := users, roleGroups := groups, inviteTags := [], inputValue := "", validationError := "",
         inviteMode := false)
  }

  /** Sizes after a submit: each list grows by the number of tags of its kind. */
  lemma InviteSubmitCounts(m: Modal, now: int)
    requires |m.inviteTags| > 0
    ensures |InviteSubmit(m, now).users| == |m.users| + Count(m.inviteTags, (t: InviteTag) => t.kind == UserTag)
    ensures |InviteSubmit(m, now).roleGroups| == |m.roleGroups| + Count(m.inviteTags, (t: InviteTag) => t.kind == GroupTag)
  {
  }

  /** Every invited entity gets the chosen permission and the submit time. */
  lemma InviteSubmitNewEntities(m: Modal, now: int)
    requires |m.inviteTags| > 0
    ensures var r := InviteSubmit(m, now);
      var k := |r.users| - |m.users|;
      forall i :: 0 <= i < k ==> r.users[i].permission == m.invitePermission && r.users[i].addedAt == now
    ensures var r := InviteSubmit(m, now);
      var k := |r.roleGroups| - |m.roleGroups|;
      forall i :: 0 <= i < k ==> r.roleGroups[i].permission == m.invitePermission && r.roleGroups[i].addedAt == now
  {
  }

  /** The level picked in the selector is the level every invited user and group gets. */
  lemma SubmitGrantsSelectedPermission(m: Modal, p: Permission, now: int)
    requires |m.inviteTags| > 0
    ensures var r := InviteSubmit(SelectInvitePermission(m, p), now);
      && (forall i :: 0 <= i < |r.users| - |m.users| ==> r.users[i].permission == p)
      && (forall i :: 0 <= i < |r.roleGroups| - |m.roleGroups| ==> r.roleGroups[i].permission == p)
  {
    InviteSubmitNewEntities(SelectInvitePermission(m, p), now);
  }

  /** The last tag ends up first in its list. */
  lemma InviteSubmitLastFirst(m: Modal, now: int)
    requires |m.inviteTags| > 0
    ensures var last := m.inviteTags[|m.inviteTags| - 1];
      last.kind == UserTag ==>
        |InviteSubmit(m, now).users| > 0 && InviteSubmit(m, now).users[0] == NewUser(last, m.invitePermission, now)
    ensures var last := m.inviteTags[|m.inviteTags| - 1];
      last.kind == GroupTag ==>
        |InviteSubmit(m, now).roleGroups| > 0
        && InviteSubmit(m, now).roleGroups[0] == NewGroup(last, m.invitePermission, now)
  {
    var tags := m.inviteTags;
    var n := |tags|;
    assert tags == tags[..n - 1] + [tags[n - 1]];
    NewUsersConcat(tags[..n - 1], [tags[n - 1]], m.invitePermission, now);
    NewGroupsConcat(tags[..n - 1], [tags[n - 1]], m.invitePermission, now);
  }

  /**
    Every user tag becomes one of the new users, with its id and name, the
    default avatar, the chosen permission and the submit time. Its e-mail is
    the tag's, or `<name>@company.com` when the tag has none or an empty one.
    The users come out in reverse tag order, so the user of the k-th tag sits
    behind the users of the later user tags.
  */
  lemma InviteSubmitFallbackEmail(m: Modal, now: int, k: int)
    requires 0 <= k < |m.inviteTags| && m.inviteTags[k].kind == UserTag
    ensures var r := InviteSubmit(m, now);
      var t := m.inviteTags[k];
      var added := |r.users| - |m.users|;
      var j := added - 1 - Count(m.inviteTags[..k], IsUserTag);
      && 0 <= j < added
      && r.users[j].id == t.id && r.users[j].name == t.name
      && (t.email.None? || t.email == Some("") ==> r.users[j].email == t.name + "@company.com")
      && (t.email.Some? && t.email.value != "" ==> r.users[j].email == t.email.value)
      && r.users[j].avatar == DefaultAvatar
      && r.users[j].permission == m.invitePermission && r.users[j].addedAt == now
  {
    var tags, p := m.inviteTags, m.invitePermission;
    var made := NewUsers(tags, p, now);
    var c := Count(tags[..k], IsUserTag);
    FilterAt(tags, IsUserTag, k);
    NewUsersFromTags(tags, p, now);
    assert made[c] == NewUser(tags[k], p, now);
    var r := InviteSubmit(m, now);
    assert r.users == Reverse(made) + m.users;
    assert r.users[|made| - 1 - c] == NewUser(tags[k], p, now);
  }

  /**
    Every group tag becomes one of the new groups, with its id and name, five
    members counted, none listed, the chosen permission and the submit time,
    in reverse tag order like the users.
  */
  lemma InviteSubmitGroupFromTag(m: Modal, now: int, k: int)
    requires 0 <= k < |m.inviteTags| && m.inviteTags[k].kind == GroupTag
    ensures var r := InviteSubmit(m, now);
      var t := m.inviteTags[k];
      var added := |r.roleGroups| - |m.roleGroups|;
      var j := added - 1 - Count(m.inviteTags[..k], IsGroupTag);
      && 0 <= j < added
      && r.roleGroups[j].id == t.id && r.roleGroups[j].name == t.name
      && r.roleGroups[j].memberCount == 5 && r.roleGroups[j].members == []
      && r.roleGroups[j].permission == m.invitePermission && r.roleGroups[j].addedAt == now
  {
    var tags, p := m.inviteTags, m.invitePermission;
    var made := NewGroups(tags, p, now);
    var c := Count(tags[..k], IsGroupTag);
    FilterAt(tags, IsGroupTag, k);
    NewGroupsFromTags(tags, p, now);
    assert made[c] == NewGroup(tags[k], p, now);
    var r := InviteSubmit(m, now);
    assert r.roleGroups == Reverse(made) + m.roleGroups;
    assert r.roleGroups[|made| - 1 - c] == NewGroup(tags[k], p, now);
  }

  lemma {:induction false} NewUsersConcat(a: seq<InviteTag>, b: seq<InviteTag>, p: Permission, now: int)
    ensures NewUsers(a + b, p, now) == NewUsers(a, p, now) + NewUsers(b, p, now)
  {
    if |a| == 0 {
      assert a + b == b;
    } else {
      assert (a + b)[1..] == a[1..] + b;
      NewUsersConcat(a[1..], b, p, now);
    }
  }

  lemma {:induction false} NewGroupsConcat(a: seq<InviteTag>, b: seq<InviteTag>, p: Permission, now: int)
    ensures NewGroups(a + b, p, now) == NewGroups(a, p, now) + NewGroups(b, p, now)
  {
    if |a| == 0 {
      assert a + b == b;
    } else {
      assert (a + b)[1..] == a[1..] + b;
      NewGroupsConcat(a[1..], b, p, now);
    }
  }

  // ---------------------------------------------------------------------------
  // Group ids stay non-empty
  // ---------------------------------------------------------------------------

  /** Every group the dialog holds or suggests, and every group tag, has a non-empty id. */
  predicate GroupIdsNonEmpty(m: Modal) {
    && (forall g :: g in m.roleGroups ==> g.id != "")
    && (forall g :: g in m.suggestedGroups ==> g.id != "")
    && (forall t :: t in m.inviteTags && t.kind == GroupTag ==> t.id != "")
  }

  /** With non-empty group ids, an accepted name takes the matched group's id, never `group-<time>`. */
  lemma GroupTagUsesMatchedId(m: Modal, name: string, now: nat)
    requires GroupIdsNonEmpty(m) && IsValidRoleGroupName(m, name)
    ensures var found := FindGroupNamed(m.roleGroups + m.suggestedGroups, name);
      found.Some? && GroupTagFor(m, name, now).id == found.value.id
  {
    var pool := m.roleGroups + m.suggestedGroups;
    var found := FindGroupNamed(pool, name);
    var i :| 0 <= i < |pool| && EqualsIgnoreCase(pool[i].name, name);
    assert found.Some?;
    var k :| 0 <= k < |pool| && pool[k] == found.value;
    assert found.value in m.roleGroups || found.value in m.suggestedGroups by {
      if k < |m.roleGroups| {
        assert pool[k] == m.roleGroups[k];
      } else {
        assert pool[k] == m.suggestedGroups[k - |m.roleGroups|];
      }
    }
  }

  /** Enter keeps group ids non-empty: the fallback id `group-<time>` is non-empty too. */
  lemma KeyDownKeepsGroupIds(m: Modal, key: string, now: nat)
    requires GroupIdsNonEmpty(m)
    ensures GroupIdsNonEmpty(KeyDown(m, key, now))
  {
    var r := KeyDown(m, key, now);
    if r.inviteTags != m.inviteTags {
      var t := Trim(m.inputValue);
      assert r == AddTagFromInput(m, now);
      var tag := if '@' in t then EmailTag(t, now) else GroupTagFor(m, t, now);
      assert r.inviteTags == m.inviteTags + [tag];
    }
  }

  /** Picking a result keeps group ids non-empty when the picked group's id is non-empty. */
  lemma PickKeepsGroupIds(m: Modal, item: Suggestion)
    requires GroupIdsNonEmpty(m)
    requires item.SuggestedGroup? ==> item.group.id != ""
    ensures GroupIdsNonEmpty(PickSearchResult(m, item))
  {
    var r := PickSearchResult(m, item);
    assert r.inviteTags == m.inviteTags + [SuggestionTag(item)];
  }

  /** Submitting keeps group ids non-empty: each new group takes the id of a group tag. */
  lemma InviteSubmitKeepsGroupIds(m: Modal, now: int)
    requires GroupIdsNonEmpty(m)
    ensures GroupIdsNonEmpty(InviteSubmit(m, now))
  {
    if |m.inviteTags| > 0 {
      var tags, p := m.inviteTags, m.invitePermission;
      var made := NewGroups(tags, p, now);
      var picked := Filter(tags, IsGroupTag);
      NewGroupsFromTags(tags, p, now);
      var r := InviteSubmit(m, now);
      forall g | g in r.roleGroups
        ensures g.id != ""
      {
        if g !in m.roleGroups {
          assert g in Reverse(made);
          var i :| 0 <= i < |made| && Reverse(made)[i] == g;
          var j := |made| - 1 - i;
          assert g == NewGroup(picked[j], p, now);
          assert picked[j] in tags && IsGroupTag(picked[j]);
        }
      }
    }
  }

  /**
    The submit with the search query cleared as well, as the two mode switches
    do. Apart from the query it is the submit above.
  */
  function InviteSubmitClearingQuery(m: Modal, now: int): (r: Modal)
    ensures |m.inviteTags| == 0 ==> r == m
    ensures |m.inviteTags| > 0 ==> r.searchQuery == "" && r.(searchQuery := m.searchQuery) == InviteSubmit(m, now)
  {
    if |m.inviteTags| == 0 then m else InviteSubmit(m, now).(searchQuery := "")
  }

  // ---------------------------------------------------------------------------
  // Suggestions and search
  // ---------------------------------------------------------------------------

  predicate HasUserId(users: seq<User>, id: string) {
    exists i :: 0 <= i < |users| && users[i].id == id
  }

  predicate HasGroupId(groups: seq<RoleGroup>, id: string) {
    exists i :: 0 <= i < |groups| && groups[i].id == id
  }

  /** The suggested users who hold no permission yet. */
  function FilteredSuggestedUsers(m: Modal): (r: seq<User>)
    ensures forall i :: 0 <= i < |r| ==> r[i] in m.suggestedUsers && !HasUserId(m.users, r[i].id)
    ensures forall i :: 0 <= i < |m.suggestedUsers| && !HasUserId(m.users, m.suggestedUsers[i].id) ==>
      m.suggestedUsers[i] in r
  {
    Filter(m.suggestedUsers, (u: User) => !HasUserId(m.users, u.id))
  }

  /** The suggested groups that hold no permission yet. */
  function FilteredSuggestedGroups(m: Modal): (r: seq<RoleGroup>)
    ensures forall i :: 0 <= i < |r| ==> r[i] in m.suggestedGroups && !HasGroupId(m.roleGroups, r[i].id)
    ensures forall i :: 0 <= i < |m.suggestedGroups| && !HasGroupId(m.roleGroups, m.suggestedGroups[i].id) ==>
      m.suggestedGroups[i] in r
  {
    Filter(m.suggestedGroups, (g: RoleGroup) => !HasGroupId(m.roleGroups, g.id))
  }

  /** A user matches a query when its name or email contains it, ignoring case. */
  predicate UserMatches(u: User, query: string) {
    Includes(Lower(u.name), Lower(query)) || Includes(Lower(u.email), Lower(query))
  }

  predicate GroupMatches(g: RoleGroup, query: string) {
    Includes(Lower(g.name), Lower(query))
  }

  function UsersAsSuggestions(us: seq<User>): (r: seq<Suggestion>)
    ensures |r| == |us|
    ensures forall i :: 0 <= i < |us| ==> r[i] == SuggestedUser(us[i])
  {
    if |us| == 0 then [] else [SuggestedUser(us[0])] + UsersAsSuggestions(us[1..])
  }

  function GroupsAsSuggestions(gs: seq<RoleGroup>): (r: seq<Suggestion>)
    ensures |r| == |gs|
    ensures forall i :: 0 <= i < |gs| ==> r[i] == SuggestedGroup(gs[i])
  {
    if |gs| == 0 then [] else [SuggestedGroup(gs[0])] + GroupsAsSuggestions(gs[1..])
  }

  /**
    The search results on screen: none while the trimmed query is blank;
    otherwise the matching ungranted suggestions in invite mode, and the
    matching granted users and groups in share mode (reachable after a submit,
    which keeps the query). Users come before groups.
  */
  function SearchResults(m: Modal): (r: seq<Suggestion>)
    ensures Trim(m.searchQuery) == "" ==> r == []
  {
    if Trim(m.searchQuery) == "" then []
    else if m.inviteMode then
      UsersAsSuggestions(Filter(FilteredSuggestedUsers(m), (u: User) => UserMatches(u, m.searchQuery)))
      + GroupsAsSuggestions(Filter(FilteredSuggestedGroups(m), (g: RoleGroup) => GroupMatches(g, m.searchQuery)))
    else
      UsersAsSuggestions(Filter(m.users, (u: User) => UserMatches(u, m.searchQuery)))
      + GroupsAsSuggestions(Filter(m.roleGroups, (g: RoleGroup) => GroupMatches(g, m.searchQuery)))
  }

  /** The query occurs in `text` with ASCII case ignored. */
  ghost predicate ContainsIgnoringCase(text: string, query: string) {
    exists i :: OccursAt(Lower(text), Lower(query), i)
  }

  lemma UsersAsSuggestionsMember(us: seq<User>, u: User)
    requires u in us
    ensures SuggestedUser(u) in UsersAsSuggestions(us)
  {
    var k :| 0 <= k < |us| && us[k] == u;
    assert UsersAsSuggestions(us)[k] == SuggestedUser(u);
  }

  lemma GroupsAsSuggestionsMember(gs: seq<RoleGroup>, g: RoleGroup)
    requires g in gs
    ensures SuggestedGroup(g) in GroupsAsSuggestions(gs)
  {
    var k :| 0 <= k < |gs| && gs[k] == g;
    assert GroupsAsSuggestions(gs)[k] == SuggestedGroup(g);
  }

  /** The matching ungranted suggested users, then the matching ungranted suggested groups. */
  lemma InviteResultsSplit(m: Modal)
    requires m.inviteMode && Trim(m.searchQuery) != ""
    ensures SearchResults(m)
      == UsersAsSuggestions(Filter(FilteredSuggestedUsers(m), (u: User) => UserMatches(u, m.searchQuery)))
       + GroupsAsSuggestions(Filter(FilteredSuggestedGroups(m), (g: RoleGroup) => GroupMatches(g, m.searchQuery)))
  {
  }

  /** The `i`-th entry of a users-then-groups result list. */
  lemma ResultAt(mu: seq<User>, mg: seq<RoleGroup>, i: int)
    requires 0 <= i < |mu| + |mg|
    ensures i < |mu| ==> (UsersAsSuggestions(mu) + GroupsAsSuggestions(mg))[i] == SuggestedUser(mu[i])
    ensures i >= |mu| ==> (UsersAsSuggestions(mu) + GroupsAsSuggestions(mg))[i] == SuggestedGroup(mg[i - |mu|])
  {
  }

  /** A user kept by the invite-mode filters is an ungranted suggestion containing the query. */
  lemma MatchedSuggestedUser(m: Modal, mu: seq<User>, k: int)
    requires mu == Filter(FilteredSuggestedUsers(m), (u: User) => UserMatches(u, m.searchQuery))
    requires 0 <= k < |mu|
    ensures mu[k] in m.suggestedUsers && !HasUserId(m.users, mu[k].id)
    ensures ContainsIgnoringCase(mu[k].name, m.searchQuery) || ContainsIgnoringCase(mu[k].email, m.searchQuery)
  {
    var fu := FilteredSuggestedUsers(m);
    assert mu[k] in fu && UserMatches(mu[k], m.searchQuery);
    var j :| 0 <= j < |fu| && fu[j] == mu[k];
  }

  /** A group kept by the invite-mode filters is an ungranted suggestion containing the query. */
  lemma MatchedSuggestedGroup(m: Modal, mg: seq<RoleGroup>, k: int)
    requires mg == Filter(FilteredSuggestedGroups(m), (g: RoleGroup) => GroupMatches(g, m.searchQuery))
    requires 0 <= k < |mg|
    ensures mg[k] in m.suggestedGroups && !HasGroupId(m.roleGroups, mg[k].id)
    ensures ContainsIgnoringCase(mg[k].name, m.searchQuery)
  {
    var fg := FilteredSuggestedGroups(m);
    assert mg[k] in fg && GroupMatches(mg[k], m.searchQuery);
    var j :| 0 <= j < |fg| && fg[j] == mg[k];
  }

  /** Every invite-mode result is an ungranted suggestion that contains the query. */
  lemma InviteSearchSound(m: Modal, i: int)
    requires m.inviteMode && Trim(m.searchQuery) != ""
    requires 0 <= i < |SearchResults(m)|
    ensures SearchResults(m)[i].SuggestedUser? ==>
      var u := SearchResults(m)[i].user;
      && u in m.suggestedUsers && !HasUserId(m.users, u.id)
      && (ContainsIgnoringCase(u.name, m.searchQuery) || ContainsIgnoringCase(u.email, m.searchQuery))
    ensures SearchResults(m)[i].SuggestedGroup? ==>
      var g := SearchResults(m)[i].group;
      g in m.suggestedGroups && !HasGroupId(m.roleGroups, g.id) && ContainsIgnoringCase(g.name, m.searchQuery)
  {
    var mu := Filter(FilteredSuggestedUsers(m), (u: User) => UserMatches(u, m.searchQuery));
    var mg := Filter(FilteredSuggestedGroups(m), (g: RoleGroup) => GroupMatches(g, m.searchQuery));
    InviteResultsSplit(m);
    ResultAt(mu, mg, i);
    if i < |mu| {
      MatchedSuggestedUser(m, mu, i);
    } else {
      MatchedSuggestedGroup(m, mg, i - |mu|);
    }
  }

  /** Every ungranted suggested user whose name or email contains the query is offered. */
  lemma InviteSearchCompleteUsers(m: Modal, u: User)
    requires m.inviteMode && Trim(m.searchQuery) != ""
    requires u in m.suggestedUsers && !HasUserId(m.users, u.id)
    requires ContainsIgnoringCase(u.name, m.searchQuery) || ContainsIgnoringCase(u.email, m.searchQuery)
    ensures SuggestedUser(u) in SearchResults(m)
  {
    var q := m.searchQuery;
    var fu := FilteredSuggestedUsers(m);
    var mu := Filter(fu, (x: User) => UserMatches(x, q));
    var mg := Filter(FilteredSuggestedGroups(m), (x: RoleGroup) => GroupMatches(x, q));
    InviteResultsSplit(m);
    var k :| 0 <= k < |m.suggestedUsers| && m.suggestedUsers[k] == u;
    assert u in fu;
    var j :| 0 <= j < |fu| && fu[j] == u;
    assert UserMatches(u, q);
    assert u in mu;
    UsersAsSuggestionsMember(mu, u);
    assert SearchResults(m) == UsersAsSuggestions(mu) + GroupsAsSuggestions(mg);
  }

  /** Every ungranted suggested group whose name contains the query is offered. */
  lemma InviteSearchCompleteGroups(m: Modal, g: RoleGroup)
    requires m.inviteMode && Trim(m.searchQuery) != ""
    requires g in m.suggestedGroups && !HasGroupId(m.roleGroups, g.id)
    requires ContainsIgnoringCase(g.name, m.searchQuery)
    ensures SuggestedGroup(g) in SearchResults(m)
  {
    var q := m.searchQuery;
    var fg := FilteredSuggestedGroups(m);
    var mg := Filter(fg, (x: RoleGroup) => GroupMatches(x, q));
    var mu := Filter(FilteredSuggestedUsers(m), (x: User) => UserMatches(x, q));
    InviteResultsSplit(m);
    var k :| 0 <= k < |m.suggestedGroups| && m.suggestedGroups[k] == g;
    assert g in fg;
    var j :| 0 <= j < |fg| && fg[j] == g;
    assert GroupMatches(g, q);
    assert g in mg;
    GroupsAsSuggestionsMember(mg, g);
    assert SearchResults(m) == UsersAsSuggestions(mu) + GroupsAsSuggestions(mg);
  }

  /** Suggestions never offer someone who already holds a permission. */
  lemma SuggestionsExcludeGranted(m: Modal)
    ensures forall i :: 0 <= i < |FilteredSuggestedUsers(m)| ==>
      forall j :: 0 <= j < |m.users| ==> m.users[j].id != FilteredSuggestedUsers(m)[i].id
    ensures forall i :: 0 <= i < |FilteredSuggestedGroups(m)| ==>
      forall j :: 0 <= j < |m.roleGroups| ==> m.roleGroups[j].id != FilteredSuggestedGroups(m)[i].id
  {
  }

  /**
    As written, a group name entered with Enter and then submitted leaves the
    share view with a visible search result: the new group itself, listed
    first, matches the query that the submit left behind.
  */
  lemma SubmitLeavesStaleResults(m: Modal, text: string, now: nat)
    requires text != "" && Trim(text) == text && '@' !in text && Acceptable(m, text)
    ensures var r := InviteSubmit(KeyDown(TypeInput(m, text), "Enter", now), now);
      |r.roleGroups| > 0 && SuggestedGroup(r.roleGroups[0]) in SearchResults(r)
  {
    var m1 := TypeInput(m, text);
    var m2 := KeyDown(m1, "Enter", now);
    KeyDownGroup(m1, now);
    var tag := m2.inviteTags[|m1.inviteTags|];
    assert |m2.inviteTags| == |m1.inviteTags| + 1;
    assert m2.inviteTags[|m2.inviteTags| - 1] == tag;
    var r := InviteSubmit(m2, now);
    InviteSubmitLastFirst(m2, now);
    var g := r.roleGroups[0];
    assert g.name == tag.name;
    var pool := m1.roleGroups + m1.suggestedGroups;
    var i :| 0 <= i < |pool| && EqualsIgnoreCase(pool[i].name, text) && tag.name == pool[i].name;
    assert Lower(g.name) == Lower(text);
    assert Lower(text) <= Lower(g.name);
    assert GroupMatches(g, r.searchQuery);
    var mg := Filter(r.roleGroups, (x: RoleGroup) => GroupMatches(x, r.searchQuery));
    assert g in mg;
    GroupsAsSuggestionsMember(mg, g);
    var mu := Filter(r.users, (x: User) => UserMatches(x, r.searchQuery));
    assert SearchResults(r) == UsersAsSuggestions(mu) + GroupsAsSuggestions(mg);
  }

  /** With the query cleared, the share view shows no search results after a submit. */
  lemma ClearedSubmitHidesResults(m: Modal, now: int)
    requires |m.inviteTags| > 0
    ensures SearchResults(InviteSubmitClearingQuery(m, now)) == []
  {
    assert Trim("") == "";
  }
}

=== FILE: share_scenarios.dfy ===
/**
  The dialog's built-in data set and concrete runs of its handlers on it.
*/
module ShareScenarios {
  import opened Options
  import opened JsText
  import opened EmailCheck
  import opened SharePermissionModal

  // Midnight UTC of the mock dates, in milliseconds since the epoch.
  const Jan15: int := 1705276800000
  const Jan12: int := 1705017600000
  const Jan10: int := 1704844800000
  const Jan08: int := 1704672000000
  const Jan05: int := 1704412800000

  const Engineering: RoleGroup := RoleGroup("1", "Engineering Team", 12, CanEdit, Jan12, [
    User("4", "David Chen", "david.chen@company.com", "https://images.unsplash.com/photo-1472099645785-5658abf4ff4e?w=32&h=32&fit=crop&crop=face", CanEdit, Jan12),
    User("5", "Emily Davis", "emily.davis@company.com", "https://images.unsplash.com/photo-1517841905240-472988babdf9?w=32&h=32&fit=crop&crop=face", CanEdit, Jan12)])

  const Marketing: RoleGroup := RoleGroup("2", "Marketing Team", 8, ViewOnly, Jan08, [
    User("6", "Frank Miller", "frank.miller@company.com", "https://images.unsplash.com/photo-1500648767791-00dcc994a43e?w=32&h=32&fit=crop&crop=face", ViewOnly, Jan08)])

  /** The state the dialog starts in; `now` is the creation time the suggestions carry. */
  function InitialModal(now: int): Modal {
    Modal(
      [ User("1", "Alice Johnson", "alice.johnson@company.com", "https://images.unsplash.com/photo-1494790108755-2616b612e64f?w=32&h=32&fit=crop&crop=face", FullAccess, Jan15),
        User("2", "Bob Smith", "bob.smith@company.com", "https://images.unsplash.com/photo-1507003211169-0a1dd7228f2d?w=32&h=32&fit=crop&crop=face", CanEdit, Jan10),
        User("3", "Carol Wilson", "carol.wilson@company.com", "https://images.unsplash.com/photo-1438761681033-6461ffad8d80?w=32&h=32&fit=crop&crop=face", ViewOnly, Jan05)],
      [Engineering, Marketing],
      [ User("suggest-1", "John Doe", "john.doe@company.com", "https://images.unsplash.com/photo-1506794778202-cad84cf45f1d?w=32&h=32&fit=crop&crop=face", ViewOnly, now),
        User("suggest-2", "Sarah Wilson", "sarah.wilson@company.com", "https://images.unsplash.com/photo-1544005313-94ddf0286df2?w=32&h=32&fit=crop&crop=face", ViewOnly, now)],
      [RoleGroup("suggest-group-1", "Design Team", 6, ViewOnly, now, [])],
      {}, false, "", [], "", "", ViewOnly)
  }

  /** Typing `engineering team` and pressing Enter adds a tag for the existing group with id `1`. */
  lemma GroupNameScenario(now: nat)
    ensures var m := TypeInput(EnterInvite(InitialModal(now)), "engineering team");
      KeyDown(m, "Enter", now).inviteTags == [InviteTag("1", "Engineering Team", GroupTag, None)]
  {
    var m := TypeInput(EnterInvite(InitialModal(now)), "engineering team");
    assert m.roleGroups == [Engineering, Marketing];
    GroupNameOnEngineering(m, now);
  }

  lemma GroupNameOnEngineering(m: Modal, now: nat)
    requires m.inputValue == "engineering team" && m.inviteTags == []
    requires |m.roleGroups| > 0 && m.roleGroups[0].id == "1" && m.roleGroups[0].name == "Engineering Team"
    ensures KeyDown(m, "Enter", now).inviteTags == [InviteTag("1", "Engineering Team", GroupTag, None)]
  {
    var g := m.roleGroups[0];
    EngineeringField(m.inputValue);
    EngineeringName(g.name, m.inputValue);
    FirstGroupTag(m, now, g);
  }

  lemma EngineeringField(t: string)
    requires t == "engineering team"
    ensures Trim(t) == t && t != "" && '@' !in t
  {
    EngineeringTrim();
  }

  lemma EngineeringName(name: string, t: string)
    requires name == "Engineering Team" && t == "engineering team"
    ensures EqualsIgnoreCase(name, t)
  {
    EngineeringNameMatches();
  }

  /** `KeyDownFirstGroup` for a field that is already trimmed and a first group with a non-empty id. */
  lemma FirstGroupTag(m: Modal, now: nat, g: RoleGroup)
    requires m.inviteTags == [] && |m.roleGroups| > 0 && m.roleGroups[0] == g && g.id != ""
    requires Trim(m.inputValue) == m.inputValue && m.inputValue != "" && '@' !in m.inputValue
    requires EqualsIgnoreCase(g.name, m.inputValue)
    ensures KeyDown(m, "Enter", now).inviteTags == [InviteTag(g.id, g.name, GroupTag, None)]
  {
    KeyDownFirstGroup(m, now);
    assert [] + [InviteTag(g.id, g.name, GroupTag, None)] == [InviteTag(g.id, g.name, GroupTag, None)];
  }

  lemma EngineeringTrim()
    ensures Trim("engineering team") == "engineering team"
  {
    TrimUnchanged("engineering team");
  }

  lemma EngineeringNameMatches()
    ensures EqualsIgnoreCase("Engineering Team", "engineering team")
  {
    EqualsIgnoreCaseIff("Engineering Team", "engineering team");
  }

  /** Text without `@` that names no group is refused with the e-mail error; the tags stay empty. */
  lemma UnknownNameScenario(now: nat)
    ensures var m := TypeInput(EnterInvite(InitialModal(now)), "not-an-email");
      var r := KeyDown(m, "Enter", now);
      r.inviteTags == [] && r.validationError == InvalidEmailMessage && r.inputValue == "not-an-email"
  {
    var t := "not-an-email";
    var m := TypeInput(EnterInvite(InitialModal(now)), t);
    assert m.inputValue == t && m.inviteTags == [];
    assert m.roleGroups + m.suggestedGroups == InitialModal(now).roleGroups + InitialModal(now).suggestedGroups;
    UnknownNameRefused(m, t);
    KeyDownRejectKeepsInput(m, now);
  }

  lemma UnknownNameRefused(m: Modal, t: string)
    requires t == "not-an-email"
    requires forall i :: 0 <= i < |m.roleGroups + m.suggestedGroups| ==>
      |(m.roleGroups + m.suggestedGroups)[i].name| != 12
    requires m.inputValue == t
    ensures Trim(m.inputValue) != "" && !Acceptable(m, Trim(m.inputValue))
  {
    TrimUnchanged(t);
    assert '@' !in t;
    var pool := m.roleGroups + m.suggestedGroups;
    forall i | 0 <= i < |pool| ensures !EqualsIgnoreCase(pool[i].name, t) {
      assert |Lower(pool[i].name)| != |Lower(t)|;
    }
  }

  /** A well-formed address becomes a user tag named by the address. */
  lemma EmailScenario(now: nat)
    ensures var m := TypeInput(EnterInvite(InitialModal(now)), "user@example.com");
      KeyDown(m, "Enter", now).inviteTags
        == [InviteTag("email-" + NatToString(now), "user@example.com", UserTag, Some("user@example.com"))]
  {
    var m := TypeInput(EnterInvite(InitialModal(now)), "user@example.com");
    EmailOnField(m, now);
  }

  lemma EmailOnField(m: Modal, now: nat)
    requires m.inputValue == "user@example.com" && m.inviteTags == []
    ensures KeyDown(m, "Enter", now).inviteTags
      == [InviteTag("email-" + NatToString(now), "user@example.com", UserTag, Some("user@example.com"))]
  {
    ExampleField(m.inputValue);
    KeyDownEmail(m, now);
  }

  lemma ExampleField(t: string)
    requires t == "user@example.com"
    ensures Trim(t) == t && '@' in t && MatchesEmailRegex(t)
  {
    ExampleAddressTrim();
    ExampleAddressMatches();
  }

  lemma ExampleAddressTrim()
    ensures Trim("user@example.com") == "user@example.com"
    ensures '@' in "user@example.com"
  {
    var t := "user@example.com";
    TrimUnchanged(t);
    assert t[4] == '@';
  }

  lemma ExampleAddressMatches()
    ensures MatchesEmailRegex("user@example.com")
  {
    var t := "user@example.com";
    assert t[..4] == "user" && t[5..12] == "example" && t[13..] == "com";
    assert SplitAt(t, 4, 12);
  }

  /** The built-in groups and suggested groups all have non-empty ids, and there are no tags yet. */
  lemma InitialGroupIdsNonEmpty(now: nat)
    ensures GroupIdsNonEmpty(InitialModal(now))
  {
  }

  /** Revoking Bob leaves Alice and Carol, in order. */
  lemma RevokeScenario(now: nat)
    ensures var m := InitialModal(now);
      ChangePermission(m, "2", Revoke).users == [m.users[0], m.users[2]]
  {
    var m := InitialModal(now);
    RevokeMiddle(m.users, "2");
  }

  /** Revoking the id held only by the middle one of three users keeps the outer two. */
  lemma RevokeMiddle(u: seq<User>, id: string)
    requires |u| == 3 && u[0].id != id && u[1].id == id && u[2].id != id
    ensures WithoutUser(u, id) == [u[0], u[2]]
  {
    assert u == [u[0]] + [u[1]] + [u[2]];
    WithoutUserConcat([u[0]] + [u[1]], [u[2]], id);
    WithoutUserConcat([u[0]], [u[1]], id);
  }
}
